=== FILE: README.md ===
# Multiverse in Dafny

Multiverse runs a decorated Python function inside another virtual
environment. A caller marks a function with `@universe(env_name=…)` or
`@universe(existing_env_path=…)`. Each call is then shipped to a long-lived
worker process in that environment, and the caller gets back the function's
result, or the exception it raised, together with what it printed.

The model covers three pieces of the package.

- **The worker registry** is `VirtualEnvManager` in
  `Multiverse/virtual_env_manager.py`, modelled in `registry.dfy`.
  - It is a process-wide singleton.
  - It settles the directory of each configured environment. An external
    path is made absolute with `abspath` and used as it is. Otherwise the
    directory is `base_dir/<name>`, prepared by a fixed plan of `check_call`
    commands: `python -m venv` only when the path does not exist yet, then
    the `pip install` steps.
  - It allocates loopback ports that no other worker holds, launches a
    worker on each port and records `workers[name] = {process, port}`.
  - At shutdown it terminates every worker, kills those that do not exit in
    time, then clears both tables.
- **The worker's connection handler** is `handle_client` in
  `Multiverse/worker.py`, modelled in `worker.dfy`.
  - It reads a request framed by the three bytes `END` and strips them.
  - It unpickles `(func, args, kwargs)` and runs the call with `sys.stdout`
    and `sys.stderr` swapped for private buffers, restoring both afterwards.
  - It sends back a pickled success or failure envelope and closes the
    connection on every path.
- **The caller's side** is `Multiverse/decorator.py`, modelled in
  `client.dfy`.
  - `universe` checks its arguments.
  - The wrapper routes the call: an external path becomes the key
    `external_<path>`, and its worker is started on first use. A named
    environment must already be registered.
  - `WorkerClient.execute` sends the pickled call followed by `END` and
    reads the answer until end of stream. It then replays the remote output
    and either returns the result or re-raises the error.

`endtoend.dfy` puts the two ends of the connection together, for a worker
whose accept loop calls `handle_client(conn)`. However the request and the
reply are cut into packets, that worker runs exactly the call that was sent,
and the caller returns or raises what the call did. This holds provided the
pickled call does not itself contain `END`. The shipped `main` does not call
`handle_client` that way (see "## Left out"), so as written no call reaches
it.

The operating system appears only through what the core observes of it.
- The class `Os` supplies the ports that `bind(('', 0))` will return, in
  order.
- It records which commands ran, which workers were launched and which
  signals were sent.
- It answers, as fixed functions, which paths exist, which commands fail,
  which launches fail and which processes exit within the grace period.

A socket (`Io.Socket`) is the sequence of results its `recv` calls will
return: each result is a packet or a raised error. cloudpickle is an
uninterpreted pair `dumps`/`loads`. Every result that needs them has the
round-trip law `RoundTrips` as a hypothesis.

Two behaviours of the registry are worth stating on their own:
- **A failed set-up does not stop the workers already started.** When
  building or launching one environment fails during construction, `__init__`
  raises without stopping the workers it has started; `ManagerClass.New`
  states that no signal is sent. Only `__del__`, which is not part of this
  model, may stop them later.
- **Only `get_instance` records the singleton.** Constructing the manager
  directly builds it but does not record it as the instance.

## Model

| member | source | states |
|---|---|---|
| Registry.ManagerClass.GetInstance | Multiverse/virtual_env_manager.py:26-37 | With an instance already recorded: returns that same object, ignores the configuration and touches nothing. Without one and without a configuration: fails with the `ValueError` and creates nothing. Otherwise it builds a manager as `New` does and records it as the instance exactly on success. On success the commands run and the launches are those of setting up every environment in order. A failure leaves no instance and is a stop at the first failing environment, as `SetUpOutcome` describes; a launch error is the one on the last port drawn. It succeeds whenever no command and no launch fails. Fresh port answers are required only when the instance has to be built. |
| Registry.Manager.constructor | Multiverse/virtual_env_manager.py:42-46 | A new manager has no workers, no used ports and no environment paths, under the given `base_dir`. |
| Registry.ManagerClass.New | Multiverse/virtual_env_manager.py:39-62 | Fails with the singleton error, changing nothing, when an instance exists. On success the new manager has one worker per configured name, in file order. Its `env_paths` map every name to its directory, and its used ports are exactly the workers' ports, pairwise distinct. The commands run are every environment's plan, the launches are one per environment in order, and each succeeded. On failure there is a first failing environment `k`. The environments before it are set up, its commands ran up to the failing one, and nothing ran or was launched after. The error is its plan's error, or else the error of launching its worker on the last port drawn: the last bind answer consumed, now among the used ports and not held by an earlier worker. No signal is sent to the workers already started. It succeeds whenever no command and no launch fails. |
| Registry.Manager.SetUpAll | Multiverse/virtual_env_manager.py:52-60 | `SetUpOutcome` holds. On success every environment is set up in file order: `ran` grows by exactly the plans' commands, and `launched` by one worker command per environment, the `j`-th on the port and with the process recorded for it. On failure set-up stops at the first environment `k` that fails: the environments before `k` are set up, `ran` ends with `k`'s commands up to the failing one, and nothing is launched after. The error is `k`'s plan error, or else the launch error on the last port drawn, which is the last bind answer consumed, now used and held by no earlier worker. Validity is kept, and on success the registry holds exactly the configured names, their directories and only the workers' ports. It succeeds whenever no command and no launch fails. |
| Registry.Manager.SetUpNext | Multiverse/virtual_env_manager.py:52-60 | One pass of the loop on environment `i`. On success the loop's invariant holds for `i + 1`: names, directories, ports, the set-up of the first `i + 1` environments and the commands run. On failure set-up has stopped at `i` as `SetUpOutcome` describes. |
| Registry.SetUpStopsAt | Multiverse/virtual_env_manager.py:52-60 | Set-up stops at environment `i` when its plan fails, or when launching its worker fails on the port it has just drawn, the last bind answer consumed. |
| Registry.SetUpDoneStep | Multiverse/virtual_env_manager.py:52-60 | An environment whose commands and launch succeed extends the set-up by one: its name, its launch as the next process, its port. |
| Registry.RanForStep | Multiverse/virtual_env_manager.py:52-58 | The commands run for environment `i` follow those run for the environments before it. |
| Registry.RanForSucceeded | Multiverse/virtual_env_manager.py:52-58 | When every environment's plan succeeds, every command run during set-up succeeded. |
| Registry.SetUpSucceedsWhenNothingFails | Multiverse/virtual_env_manager.py:52-60 | If no `check_call` and no `Popen` can fail, set-up ends without error. |
| Registry.SetUpOkCommandsSucceeded | Multiverse/virtual_env_manager.py:52-60 | A successful set-up ran only commands that succeed. |
| Registry.SetUpLaunchesSucceeded | Multiverse/virtual_env_manager.py:60 | Every launch made during set-up succeeded. |
| Registry.SetUpProcessesDistinct | Multiverse/virtual_env_manager.py:52-60 | Set-up gives every worker its own process, numbered by its launch, so no two workers share a process. |
| Registry.Manager.SetUpEnvironment | Multiverse/virtual_env_manager.py:52-60 | Runs exactly the executed prefix of the environment's plan (none for an external path). A plan failure is returned as the error, and nothing else changes. Otherwise `env_paths[name]` is set and one fresh port is drawn and used; the error is exactly the launch error of `python worker.py --env-name <name> --port <port>`. On a launch the worker is recorded under the name with that port and the next process, and the command is appended to the launches; on a launch failure `workers` and the launches are unchanged. It succeeds whenever nothing fails. |
| Registry.Manager.PrepareEnvironment | Multiverse/virtual_env_manager.py:53-58 | The directory is `EnvPath` of the configuration. The commands run are the executed prefix of the plan (none for an external path), and the error is the plan's error, raised by the last command run. |
| Registry.Manager.RecordAndStart | Multiverse/virtual_env_manager.py:59-60 | Sets `env_paths[name]`, then draws the first fresh port and launches the worker on it. The error is exactly the launch error; the worker is recorded only on a launch. Validity is kept and one fresh answer is used up. |
| Registry.EnvPath | Multiverse/virtual_env_manager.py:53-57 | The directory is the absolute external path when one is given. Otherwise it is `base_dir` joined with the environment's name. |
| Registry.CreateVirtualenv | Multiverse/virtual_env_manager.py:64-85 | Runs the commands of the creation plan in order, up to and including the first that fails. The error is the one that command raised. |
| Registry.VenvOnlyWhenMissing | Multiverse/virtual_env_manager.py:68-73 | `python -m venv` is in the plan exactly when the path does not exist, and then it comes first, with `python_version` or else `python3`. Every other step is a `pip install`. |
| Registry.PipSteps | Multiverse/virtual_env_manager.py:71-85 | pip is always upgraded, then cloudpickle installed. The `-r` step is present only when a requirements file is named, and the package step (last) only when the list is non-empty. The plan's length counts exactly these steps. |
| Registry.ExecutedPrefix | Multiverse/virtual_env_manager.py:64-85 | What `check_call` runs is a prefix of the plan, and every command before its last one succeeded. It is the whole plan when nothing fails; otherwise it ends at the failing command. |
| Registry.PlanErrorIsFirst | Multiverse/virtual_env_manager.py:64-85 | No error exactly when every command of the plan succeeds. Otherwise the error is the one raised by the first failing command of the plan: every command before it succeeds. |
| Registry.FirstFresh | Multiverse/virtual_env_manager.py:93-100 | The retry loop stops at the first drawn port not already used. Every port drawn before it is used. |
| Registry.Manager.FindFreePort | Multiverse/virtual_env_manager.py:87-102 | Returns the first drawn port not in `used_ports` and consumes the draws up to it. `used_ports` becomes the old set plus exactly that port. |
| Registry.ConsumedDraw | Multiverse/virtual_env_manager.py:87-102 | Drawing the answer at index `i` of what is left of the bind answers leaves a shorter remainder of the original answers, whose last consumed answer is the one drawn. |
| Registry.FreshDrawsAfterAllocation | Multiverse/virtual_env_manager.py:87-102 | One allocation uses up exactly one of the fresh answers the system still has to give. |
| Registry.FreshDrawsPositive | Multiverse/virtual_env_manager.py:96-100 | When at least one fresh answer is left, the retry loop terminates. |
| Registry.Manager.StartWorker | Multiverse/virtual_env_manager.py:104-118 | Allocates a fresh port and launches `python worker.py --env-name <name> --port <port>`. On success it records `{process, port}` under the name and leaves every other entry unchanged. On failure the port stays used and nothing is recorded. Workers keep pairwise-distinct ports, all in `used_ports`. |
| Registry.Manager.StopWorkers | Multiverse/virtual_env_manager.py:120-132 | Every process is sent SIGTERM. A process gets SIGKILL exactly when it does not exit in time, and only right after its own SIGTERM; no other process is signalled. When no two workers share a process, each gets SIGTERM once. Afterwards both tables are empty, and a call on an empty registry sends nothing. |
| Registry.StopProcess | Multiverse/virtual_env_manager.py:125-130 | One process is sent SIGTERM, followed by SIGKILL exactly when it does not exit within the timeout, and nothing else. |
| Registry.StopStep | Multiverse/virtual_env_manager.py:124-130 | One iteration of the stop loop on a worker not yet stopped keeps both the escalation and, when processes are distinct, the single SIGTERM per process. |
| Registry.SignalledOnceStep | Multiverse/virtual_env_manager.py:125-126 | Signalling a process not signalled before keeps every process at most one SIGTERM. |
| Registry.EscalationStep | Multiverse/virtual_env_manager.py:122-129 | One iteration of the stop loop (terminate, wait, perhaps kill) extends the escalation to one more process. |
| Registry.NamesOfDistinct | Multiverse/virtual_env_manager.py:52 | Configured names are distinct, so each iteration adds a name not yet registered. |
| Registry.NamesOfBelow | Multiverse/virtual_env_manager.py:52 | Every name registered after `i` iterations belongs to one of the first `i` environments. |
| Worker.ReadRequest | Multiverse/worker.py:21-28 | The read loop ends with what the framing function `Receive` gives for the packets delivered. |
| Worker.ReceiveFromBoundary | Multiverse/worker.py:21-28 | While the loop goes on, the bytes gathered are exactly the concatenation of the packets consumed. |
| Worker.ReceiveStopsAtSentinel | Multiverse/worker.py:26-28 | The loop stops at the first packet boundary where the gathered bytes end with `END`. |
| Worker.ReceiveStopsAtEof | Multiverse/worker.py:23-25 | The loop stops at the first empty packet with what was gathered before it. |
| Worker.ReceiveFailsAt | Multiverse/worker.py:23 | A `recv` that raises before the loop stops ends the read with that error. |
| Worker.SentinelFraming | Multiverse/worker.py:21-29 | Round trip: if the packets concatenate to `P + END` and `END` does not occur in `P`, the worker extracts exactly `P`, however the packets are cut. |
| Worker.EarlySentinelCutsRequest | Multiverse/worker.py:26-29 | If `END` occurs inside the payload and a packet ends right after it, the request is cut there and only the head is decoded. |
| Worker.TruncatedRequest | Multiverse/worker.py:24-29 | A request ended by end of stream without `END` is still taken whole. Its last three bytes are dropped as if they were the sentinel; with fewer than three, nothing is left. |
| Worker.RunCaptured | Multiverse/worker.py:31-56 | The reply is the success envelope (result, captured stdout, captured stderr) or the failure envelope (exception, captured stderr, `\n`, traceback). An error that is not an `Exception` escapes with no envelope. `sys.stdout` and `sys.stderr` are restored and left unchanged on every path. |
| Worker.Invoke | Multiverse/worker.py:38 | The call's output goes to whatever streams are installed when it runs. |
| Worker.FailureCarriesTraceback | Multiverse/worker.py:46-51 | A failure envelope holds the exception. Its stderr starts with the captured stderr and `\n` and ends with the traceback's last line: `Kind: message\n`, or `Kind\n` when the message is empty. |
| Worker.TopLevelFailureAnswered | Multiverse/worker.py:58-63 | A read, unpickling or unpacking failure is still answered by a failure envelope holding the error and its traceback, unless the error is not an `Exception`. |
| Worker.HandleClient | Multiverse/worker.py:16-65 | Sends exactly the pickled reply for the packets received, or nothing when an error escapes (that error is then raised). It restores the worker's streams and closes the connection on every path. |
| Client.Universe | Multiverse/decorator.py:57-63 | Fails with `ValueError` exactly when both `env_name` and `existing_env_path` are absent; otherwise it keeps both arguments. |
| Client.ExternalKey | Multiverse/decorator.py:71 | The key of an external environment starts with `external_`, and the rest is the whole path. |
| Client.ExternalKeyInjective | Multiverse/decorator.py:71 | Distinct external paths never share a worker key. |
| Client.Wrapper | Multiverse/decorator.py:66-82 | Fails when no registry exists yet. A truthy external path takes precedence: the worker under `external_<path>` is started only when that key is absent, a launch failure is raised, and the call goes to the port recorded for the key. Otherwise a name missing from `workers` (or no name) raises `ValueError` before any connection. Once a worker is found, the result and printed output are those `execute` gives for that key and port. |
| Client.ExternalPort | Multiverse/decorator.py:68-74 | A key `external_<path>` already recorded gives its port and changes nothing. Otherwise a worker is started on the first fresh port: a launch failure is returned and records nothing; a launch records the worker under the key and gives that port. |
| Client.CallExternal | Multiverse/decorator.py:68-75 | Starts the external worker as `ExternalPort` says; a launch failure is raised without a connection. Otherwise the call is served by the worker recorded under `external_<path>`. |
| Client.CallNamed | Multiverse/decorator.py:76-82 | A name registered in `workers` has the call served on its worker's port. A missing name, or no name at all, raises `ValueError` naming it without opening a connection. |
| Client.WorkerClient.constructor | Multiverse/decorator.py:19-22 | A client holds the environment name, the host `127.0.0.1` and the given port. |
| Client.WorkerClient.Execute | Multiverse/decorator.py:24-54 | Only when connected does it send the pickled `(func, args, kwargs)` followed by `END` to `127.0.0.1:<port>`. The result and printed output are those `ExecuteSpec` gives. The socket is closed on every path. |
| Client.Request | Multiverse/decorator.py:32 | The request ends with `END`, and stripping it gives back the pickled call. |
| Client.WorkerClient.ReadResponse | Multiverse/decorator.py:34-39 | The read loop ends with what `Drain` gives for the packets delivered. |
| Client.DrainAll | Multiverse/decorator.py:34-39 | Data packets are gathered in full and in order. |
| Client.DrainStopsAtEof | Multiverse/decorator.py:37-38 | Nothing after the first empty packet is read. |
| Client.WorkerClient.Dispatch | Multiverse/decorator.py:40-51 | An envelope with `exception` prints its stderr and then raises that exception. Otherwise it prints the remote stdout and returns `result`. An unpickling error is raised. |
| Client.WorkerClient.Report | Multiverse/decorator.py:47-51 | An `Exception` is reported as `Error executing function in environment '<name>': <message>` and re-raised. Any other error passes through unreported. |
| Client.FailuresAreReported | Multiverse/decorator.py:40-51 | A returned value prints nothing to stderr. A raised error prints nothing to stdout, is re-raised unchanged and, when it is an `Exception`, ends stderr with the report line. A connection error is the one re-raised. |
| Client.ResponseRoundTrip | Multiverse/decorator.py:34-46 | For a pickled envelope in any packetisation, a success returns its result and prints its stdout only. A failure prints its stderr, reports the error and raises it. |
| EndToEnd.RequestRoundTrip | Multiverse/decorator.py:32 | For a request sent in any packetisation, a worker that calls `handle_client(conn)` runs exactly the pickled call when `END` is absent from the pickle. |
| EndToEnd.CallRoundTrip | Multiverse/worker.py:37-63 | Caller and a worker that calls `handle_client(conn)` together: a returning function gives its value and replays its stdout, and the remote stderr is dropped. A raising `Exception` is re-raised after the remote stderr, the traceback and the caller's report. A non-`Exception` error leaves the caller unpickling an empty response. |

## Left out

- Process, socket and file I/O are not executed. `Popen`, `check_call`, `bind`, `connect`, `recv`, `sendall` and `wait` become the `Os`, `Socket` and `Console` oracles described above.
- Creating the socket can fail; the model does not cover that. `socket.socket()` is assumed to succeed.
- The 4096-byte bound on each `recv` is not kept: a packet is any non-empty byte sequence.
- `sendall` is assumed not to fail.
- `dumps` is assumed not to fail. In the source, a result that cannot be pickled turns into a failure envelope in the worker.
- YAML loading is not modelled: the configuration arrives already parsed, with its environments in file order and distinct names.
- `os.makedirs(base_dir)` is not modelled.
- The `threading.Lock` sections are not modelled; they are taken to be atomic.
- The per-connection threads are not modelled.
- The unlocked check-then-start of an external worker at Multiverse/decorator.py:72-73 is modelled only as one call after another.
- The worker's `main` (argument parsing and the accept loop) is not part of this model. It starts each connection's thread with `handle_client` and the arguments `(conn, addr)`. `handle_client` takes one argument, so the thread raises `TypeError` before reading anything, and no call is run or answered. `EndToEnd.RequestRoundTrip` and `EndToEnd.CallRoundTrip` describe a worker whose accept loop calls `handle_client(conn)`.
- `atexit.register(self.stop_workers)` and `__del__` are not modelled; `StopWorkers` is modelled as a method called directly.
- Registry.AbsPath does no normalisation: `.`, `..`, repeated `/` and a trailing `/` are kept, where `os.path.abspath` removes them. With `existing_env_path: "/opt/venv/"` the source records `/opt/venv` and the model `/opt/venv/`. `os.path.join` does not normalise in the source either, and `Registry.Join` follows it.
- Registry.Manager.FindFreePort: the retry loop's termination is assumed, not proved. Its precondition asks that a fresh port is still to come among the finite answers of `bind`; the source relies on the OS for this.
- Registry.ManagerClass.New: requires, when no instance exists yet, as many fresh port answers as there are environments, for the same reason. `Registry.ManagerClass.GetInstance` asks the same only when it has to build the instance.
- Registry.Manager.StopWorkers: iterates the workers in an unspecified order rather than dict insertion order. The signal log is stated up to that order.
- Registry.Manager.StopWorkers: one SIGTERM per process is proved only when no two workers share a process. `SetUpProcessesDistinct` discharges this for a registry that `__init__` built. For workers the wrapper starts later, the model does not carry process distinctness from call to call.
- Client.WorkerClient.Dispatch: a decoded response that is not an envelope raises one fixed error. In the source it may raise one of several errors, depending on the object.
- Worker.HandleClient: a decoded request that is not a `(func, args, kwargs)` call is answered with one fixed unpacking error. In the source the outcome depends on the object's shape. An iterable of three elements unpacks and then fails at the call, inside the inner `try` with the streams swapped. Other lengths raise `ValueError`, and a non-iterable raises `TypeError`.
- Pickling: cloudpickle's semantics (pickling closures) are not modelled; `RoundTrips` is a hypothesis of the lemmas that need it.
- `Multiverse/__init__.py` only re-exports and is not part of this model.

=== FILE: client.dfy ===
/**
 * The caller's side (`decorator.py`): the `universe` decorator resolves
 * which worker a call goes to, starting a worker on demand for an external
 * environment path, and `WorkerClient.execute` ships `(func, args, kwargs)`
 * to it over a loopback socket, reads the pickled envelope back to end of
 * stream, replays the remote output and returns or re-raises.
 */
module Client {
  import opened Wrappers
  import opened Pickling
  import opened Io
  import opened Worker
  import opened Registry

  const Localhost: string := "127.0.0.1"

  const NoTarget: Exc := Exc("ValueError", "Must specify either 'env_name' or 'existing_env_path'.", "", true)

  /** The error the wrapper raises for a named environment the registry does not hold. */
  function NotAvailable(name: string): Exc
  {
    Exc("ValueError", "Environment '" + name + "' is not available.", "", true)
  }

  /** The two arguments of `@universe(env_name=None, existing_env_path=None)`. */
  datatype Target = Target(envName: Option<string>, existingEnvPath: Option<string>)

  /** `universe(...)`: refuses, when the decorator is built, a target that names nothing. */
  function Universe(envName: Option<string>, existingEnvPath: Option<string>): (r: Result<Target, Exc>)
    ensures r.Err? <==> envName.None? && existingEnvPath.None?
    ensures r.Err? ==> r.error == NoTarget
    ensures r.Ok? ==> r.value.envName == envName && r.value.existingEnvPath == existingEnvPath
  {
    if envName.None? && existingEnvPath.None? then Err(NoTarget) else Ok(Target(envName, existingEnvPath))
  }

  /** The registry key of an external environment: `f"external_{env_path}"`. */
  function ExternalKey(path: string): (key: string)
    ensures |key| == |path| + 9 && key[..9] == "external_" && key[9..] == path
  {
    "external_" + path
  }

  /** Different external paths never share a worker. */
  lemma ExternalKeyInjective(a: string, b: string)
    requires ExternalKey(a) == ExternalKey(b)
    ensures a == b
  {
    assert a == ExternalKey(a)[9..];
  }

  /** What `execute` ends with: the function's return value, or the error it re-raises. */
  datatype CallResult = Returned(value: Value) | Raised(error: Exc)

  /** An execution's result together with what it printed to the caller's stdout and stderr. */
  datatype Effect = Effect(result: CallResult, out: string, err: string)

  /** The message `execute` prints before re-raising an `Exception`. */
  function ErrorMessage(envName: string, e: Exc): string
  {
    "Error executing function in environment '" + envName + "': " + e.message
  }

  /**
   * The `except Exception` block: report and re-raise; an error that is not
   * an `Exception` passes through it unreported.  `printed` is what went to
   * stderr before the error was raised.
   */
  function Fail(envName: string, e: Exc, printed: string): Effect
  {
    Effect(Raised(e), "", printed + if e.isException then ErrorMessage(envName, e) + "\n" else "")
  }

  /**
   * The read loop of `execute`: gather packets until an empty one (end of
   * stream); a failing `recv` ends it with that error.  No sentinel is
   * looked for: the worker closes the connection after its reply.
   */
  function Drain(rs: seq<Recv>, acc: seq<byte>): ReadOutcome
    decreases |rs|
  {
    if rs == [] then Received(acc)
    else match rs[0]
      case RecvError(e) => ReadFailed(e)
      case Packet(p) => if p == [] then Received(acc) else Drain(rs[1..], acc + p)
  }

  /** The `if 'exception' in response` dispatch: act on what `cloudpickle.loads` made of the response. */
  function Answer(envName: string, loaded: Result<Obj, Exc>): Effect
  {
    match loaded
    case Err(e) => Fail(envName, e, "")
    case Ok(EnvObj(Success(v, out, _))) => Effect(Returned(v), out, "")
    case Ok(EnvObj(Failure(exc, stderr))) => Fail(envName, exc, stderr + "\n")
    case Ok(_) => Fail(envName, NotAnEnvelope, "")
  }

  /**
   * `execute` against a socket whose `connect` raises `connectError`, if
   * anything, and whose peer delivers `incoming`.
   */
  function ExecuteSpec(envName: string, connectError: Option<Exc>, incoming: seq<Recv>, p: Pickler): Effect
  {
    if connectError.Some? then Fail(envName, connectError.value, "")
    else match Drain(incoming, [])
      case ReadFailed(e) => Fail(envName, e, "")
      case Received(data) => Answer(envName, p.loads(data))
  }

  /** The bytes `execute` sends: the pickled call followed by `END`. */
  function Request(p: Pickler, call: Call): (bytes: seq<byte>)
    ensures EndsWithSentinel(bytes) && StripSentinel(bytes) == p.dumps(CallObj(call))
  {
    var payload := p.dumps(CallObj(call));
    assert (payload + Sentinel)[|payload + Sentinel| - 3..] == Sentinel;
    assert (payload + Sentinel)[..|payload + Sentinel| - 3] == payload;
    payload + Sentinel
  }

  /** Packets that are all data are gathered in full, in order. */
  lemma {:induction false} DrainAll(rs: seq<Recv>, acc: seq<byte>)
    requires AllData(rs)
    ensures Drain(rs, acc) == Received(acc + Flatten(rs))
    decreases |rs|
  {
    if rs != [] {
      DrainAll(rs[1..], acc + rs[0].bytes);
      assert acc + rs[0].bytes + Flatten(rs[1..]) == acc + Flatten(rs);
    }
  }

  /** Whatever follows the first end of stream is never read. */
  lemma {:induction false} DrainStopsAtEof(rs: seq<Recv>, rest: seq<Recv>, acc: seq<byte>)
    requires AllData(rs)
    ensures Drain(rs + [Packet([])] + rest, acc) == Received(acc + Flatten(rs))
    decreases |rs|
  {
    var all := rs + [Packet([])] + rest;
    if rs == [] {
      assert all[0] == Packet([]);
    } else {
      assert all[0] == rs[0];
      assert all[1..] == rs[1..] + [Packet([])] + rest;
      DrainStopsAtEof(rs[1..], rest, acc + rs[0].bytes);
      assert acc + rs[0].bytes + Flatten(rs[1..]) == acc + Flatten(rs);
    }
  }

  /**
   * The caller sees what the remote call did: a `Success` envelope returns
   * its result and replays its stdout; a `Failure` envelope replays its
   * stderr and re-raises its exception, reported when it is an `Exception`.
   */
  lemma ResponseRoundTrip(envName: string, rs: seq<Recv>, p: Pickler, env: Envelope)
    requires RoundTrips(p)
    requires AllData(rs) && Flatten(rs) == p.dumps(EnvObj(env))
    ensures var eff := ExecuteSpec(envName, None, rs, p);
            match env
            case Success(v, out, _) => eff == Effect(Returned(v), out, "")
            case Failure(exc, stderr) =>
              && eff.result == Raised(exc) && eff.out == ""
              && eff.err == stderr + "\n" + (if exc.isException then ErrorMessage(envName, exc) + "\n" else "")
  {
    DrainAll(rs, []);
    assert [] + Flatten(rs) == p.dumps(EnvObj(env));
  }

  /**
   * Every failure is re-raised unchanged, and reported on stderr, last, with
   * the environment's name exactly when it is an `Exception`; a returned
   * value prints nothing to stderr.
   */
  lemma FailuresAreReported(envName: string, connectError: Option<Exc>, incoming: seq<Recv>, p: Pickler)
    ensures var eff := ExecuteSpec(envName, connectError, incoming, p);
            && (eff.result.Returned? ==> eff.err == "")
            && (eff.result.Raised? ==>
                  var line := ErrorMessage(envName, eff.result.error) + "\n";
                  && eff.out == ""
                  && (eff.result.error.isException ==> |eff.err| >= |line| && eff.err[|eff.err| - |line|..] == line))
            && (connectError.Some? ==> eff.result == Raised(connectError.value))
  {
    var eff := ExecuteSpec(envName, connectError, incoming, p);
    if eff.result.Raised? && eff.result.error.isException {
      var line := ErrorMessage(envName, eff.result.error) + "\n";
      var before := eff.err[..|eff.err| - |line|];
      assert eff.err == before + line;
    }
  }

  /** The socket `execute` talks through: the environment's name and the worker's loopback port. */
  class WorkerClient {
    const envName: string
    const host: string
    const port: int

    constructor (envName: string, port: int)
      ensures this.envName == envName && host == Localhost && this.port == port
    {
      this.envName := envName;
      host := Localhost;
      this.port := port;
    }

    /** The `while True` loop of `execute`. */
    method ReadResponse(sock: Socket) returns (r: ReadOutcome)
      modifies sock`incoming
      ensures r == Drain(old(sock.incoming), [])
    {
      var data: seq<byte> := [];
      while true
        invariant Drain(sock.incoming, data) == Drain(old(sock.incoming), [])
        decreases |sock.incoming|
      {
        var packet := sock.Receive();
        match packet {
          case RecvError(e) =>
            return ReadFailed(e);
          case Packet(bytes) =>
            if bytes == [] {
              return Received(data);
            }
            data := data + bytes;
        }
      }
    }

    /**
     * `execute(func, *args, **kwargs)` through the freshly created socket
     * `sock`: the outcome and the output are those `ExecuteSpec` gives,
     * the request goes out only once connected, and the socket is closed on
     * every path.
     */
    method Execute(sock: Socket, console: Console, p: Pickler, call: Call) returns (result: CallResult)
      modifies sock, console
      ensures var eff := ExecuteSpec(envName, old(sock.connectError), old(sock.incoming), p);
              && result == eff.result
              && console.out == old(console.out) + eff.out
              && console.err == old(console.err) + eff.err
      ensures old(sock.connectError).None? ==>
                sock.peer == Some((host, port)) && sock.sent == old(sock.sent) + Request(p, call)
      ensures old(sock.connectError).Some? ==> sock.peer == old(sock.peer) && sock.sent == old(sock.sent)
      ensures sock.closed
    {
      var connectError := sock.Connect(host, port);
      if connectError.Some? {
        result := Report(console, connectError.value);
      } else {
        sock.SendAll(p.dumps(CallObj(call)) + Sentinel);
        var read := ReadResponse(sock);
        match read {
          case ReadFailed(e) =>
            result := Report(console, e);
          case Received(responseData) =>
            var response := p.loads(responseData);
            result := Dispatch(console, response);
        }
      }
      sock.Close();
    }

    /** The `if 'exception' in response` dispatch together with the `except` block: act on the unpickled response. */
    method Dispatch(console: Console, response: Result<Obj, Exc>) returns (result: CallResult)
      modifies console
      ensures var eff := Answer(envName, response);
              && result == eff.result
              && console.out == old(console.out) + eff.out
              && console.err == old(console.err) + eff.err
    {
      match response {
        case Err(e) =>
          result := Report(console, e);
        case Ok(obj) =>
          if obj.EnvObj? && obj.envelope.Failure? {
            console.PrintErr(obj.envelope.stderr);
            result := Report(console, obj.envelope.exception);
          } else if obj.EnvObj? {
            console.PrintOut(obj.envelope.stdout);
            result := Returned(obj.envelope.result);
          } else {
            result := Report(console, NotAnEnvelope);
          }
      }
    }

    /** The `except Exception` block: report on stderr and re-raise; any other error just passes. */
    method Report(console: Console, e: Exc) returns (result: CallResult)
      modifies console
      ensures var eff := Fail(envName, e, "");
              && result == eff.result
              && console.out == old(console.out) + eff.out
              && console.err == old(console.err) + eff.err
    {
      if e.isException {
        console.PrintErr(ErrorMessage(envName, e));
      }
      result := Raised(e);
    }
  }

  /**
   * A call forwarded to the worker on `port` through `sock`: it returns or
   * raises as `ExecuteSpec` says for the client named `envName`, prints
   * what that says, and leaves the socket closed.
   */
  twostate predicate Served(sock: Socket, console: Console, envName: string, port: int, p: Pickler,
                            call: Call, result: CallResult)
    reads sock, console
  {
    var eff := ExecuteSpec(envName, old(sock.connectError), old(sock.incoming), p);
    && result == eff.result
    && console.out == old(console.out) + eff.out
    && console.err == old(console.err) + eff.err
    && sock.closed
    && (old(sock.connectError).None? ==> sock.peer == Some((Localhost, port)) && sock.sent == old(sock.sent) + Request(p, call))
    && (old(sock.connectError).Some? ==> sock.sent == old(sock.sent))
  }

  /**
   * The `existing_env_path` branch of the wrapper: start a worker under the
   * key `external_<path>` unless one is recorded there, then take its port.
   */
  method ExternalPort(m: Manager, envPath: string, os: Os) returns (r: Result<Port, Exc>)
    requires m.Valid()
    requires ExternalKey(envPath) !in m.workers ==> HasFresh(os.ports, m.usedPorts)
    modifies m`workers, m`usedPorts, os`ports, os`launched
    ensures m.Valid()
    ensures var key := ExternalKey(envPath);
            key in old(m.workers) ==> r == Ok(old(m.workers)[key].port) && unchanged(m) && unchanged(os)
    ensures var key := ExternalKey(envPath);
            key !in old(m.workers) ==>
              var i := FirstFresh(old(os.ports), old(m.usedPorts));
              var port := old(os.ports)[i];
              var cmd := WorkerCommand(os.workerScript, key, envPath, port);
              && port !in old(m.usedPorts) && m.usedPorts == old(m.usedPorts) + {port}
              && os.ports == old(os.ports)[i + 1..]
              && (os.spawnError(cmd).Some? ==>
                    r == Err(os.spawnError(cmd).value) && m.workers == old(m.workers) && os.launched == old(os.launched))
              && (os.spawnError(cmd).None? ==>
                    r == Ok(port) &&
                    m.workers == old(m.workers)[key := WorkerInfo(Process(|old(os.launched)|), port)] &&
                    os.launched == old(os.launched) + [cmd])
  {
    var envKey := ExternalKey(envPath);
    if envKey !in m.workers {
      var error := m.StartWorker(envKey, envPath, os);
      if error.Some? {
        return Err(error.value);
      }
    }
    return Ok(m.workers[envKey].port);
  }

  /**
   * The wrapper for `universe(existing_env_path=path)`: find or start the
   * worker under `external_<path>`, then execute the call on its port.
   */
  method CallExternal(m: Manager, envPath: string, os: Os, sock: Socket, console: Console, p: Pickler, call: Call)
    returns (result: CallResult)
    requires m.Valid()
    requires ExternalKey(envPath) !in m.workers ==> HasFresh(os.ports, m.usedPorts)
    modifies m`workers, m`usedPorts, os`ports, os`launched, sock, console
    ensures m.Valid()
    ensures var key := ExternalKey(envPath);
            key in old(m.workers) ==>
              unchanged(m) && unchanged(os) && Served(sock, console, key, m.workers[key].port, p, call, result)
    ensures var key := ExternalKey(envPath);
            key !in old(m.workers) ==>
              var i := FirstFresh(old(os.ports), old(m.usedPorts));
              var port := old(os.ports)[i];
              var cmd := WorkerCommand(os.workerScript, key, envPath, port);
              && port !in old(m.usedPorts) && m.usedPorts == old(m.usedPorts) + {port}
              && os.ports == old(os.ports)[i + 1..]
              && (os.spawnError(cmd).Some? ==>
                    result == Raised(os.spawnError(cmd).value) && unchanged(sock, console) &&
                    m.workers == old(m.workers) && os.launched == old(os.launched))
              && (os.spawnError(cmd).None? ==>
                    m.workers == old(m.workers)[key := WorkerInfo(Process(|old(os.launched)|), port)] &&
                    os.launched == old(os.launched) + [cmd] &&
                    Served(sock, console, key, port, p, call, result))
  {
    var port := ExternalPort(m, envPath, os);
    if port.Err? {
      return Raised(port.error);
    }
    var client := new WorkerClient(ExternalKey(envPath), port.value);
    result := client.Execute(sock, console, p, call);
  }

  /**
   * The wrapper for `universe(env_name=name)`: the name must already be
   * registered (`None` never is), and the call goes to its worker's port.
   */
  method CallNamed(m: Manager, envName: Option<string>, sock: Socket, console: Console, p: Pickler, call: Call)
    returns (result: CallResult)
    modifies sock, console
    ensures var name := if envName.Some? then envName.value else "None";
            if envName.Some? && name in m.workers then Served(sock, console, name, m.workers[name].port, p, call, result)
            else result == Raised(NotAvailable(name)) && unchanged(sock, console)
  {
    if envName.None? {
      return Raised(NotAvailable("None"));
    }
    var name := envName.value;
    if name !in m.workers {
      return Raised(NotAvailable(name));
    }
    var client := new WorkerClient(name, m.workers[name].port);
    result := client.Execute(sock, console, p, call);
  }

  /**
   * The function `universe(...)` wraps, called with `call`: look up the
   * registry (which must already exist), find or start the worker of the
   * target, and execute the call there.
   */
  method Wrapper(t: Target, cls: ManagerClass, os: Os, sock: Socket, console: Console, p: Pickler, call: Call)
    returns (result: CallResult)
    requires cls.Valid()
    requires cls.instance != null && Truthy(t.existingEnvPath) && ExternalKey(t.existingEnvPath.value) !in cls.instance.workers ==>
               HasFresh(os.ports, cls.instance.usedPorts)
    modifies cls, os, sock, console, if cls.instance == null then {} else {cls.instance}
    ensures cls.instance == old(cls.instance) && cls.Valid()
    ensures old(cls.instance) == null ==> result == Raised(NeedConfigError) && unchanged(sock, console)
    ensures old(cls.instance) != null && !Truthy(t.existingEnvPath) ==>
              var m := cls.instance;
              var name := if t.envName.Some? then t.envName.value else "None";
              && unchanged(m) && unchanged(os)
              && (if t.envName.Some? && name in m.workers then Served(sock, console, name, m.workers[name].port, p, call, result)
                  else result == Raised(NotAvailable(name)) && unchanged(sock, console))
    ensures old(cls.instance) != null && Truthy(t.existingEnvPath) ==>
              var m := cls.instance;
              var key := ExternalKey(t.existingEnvPath.value);
              && (key in old(m.workers) ==>
                    unchanged(m) && unchanged(os) && Served(sock, console, key, m.workers[key].port, p, call, result))
              && (key !in old(m.workers) ==>
                    var i := FirstFresh(old(os.ports), old(m.usedPorts));
                    var port := old(os.ports)[i];
                    var cmd := WorkerCommand(os.workerScript, key, t.existingEnvPath.value, port);
                    && port !in old(m.usedPorts) && m.usedPorts == old(m.usedPorts) + {port}
                    && os.ports == old(os.ports)[i + 1..]
                    && (os.spawnError(cmd).Some? ==>
                          result == Raised(os.spawnError(cmd).value) && unchanged(sock, console) &&
                          m.workers == old(m.workers) && os.launched == old(os.launched))
                    && (os.spawnError(cmd).None? ==>
                          m.workers == old(m.workers)[key := WorkerInfo(Process(|old(os.launched)|), port)] &&
                          os.launched == old(os.launched) + [cmd] &&
                          Served(sock, console, key, port, p, call, result)))
  {
    var instance := cls.GetInstance(None, os);
    if instance.Err? {
      return Raised(instance.error);
    }
    var manager := instance.value;
    if Truthy(t.existingEnvPath) {
      result := CallExternal(manager, t.existingEnvPath.value, os, sock, console, p, call);
    } else {
      result := CallNamed(manager, t.envName, sock, console, p, call);
    }
  }
}

=== FILE: endtoend.dfy ===
/**
 * The caller and a worker together: the bytes `WorkerClient.execute` sends
 * are what `handle_client` reads, and the envelope the worker sends back is
 * what the caller acts on, however either stream is cut into packets.  The
 * worker is one whose accept loop calls `handle_client(conn)`; the shipped
 * `main` passes `(conn, addr)` instead, and its threads fail before reading.
 */
module EndToEnd {
  import opened Wrappers
  import opened Pickling
  import opened Io
  import opened Worker
  import opened Client

  /**
   * The request round trip: a worker whose `handle_client(conn)` is handed
   * the caller's request, in any packetisation, runs exactly the call the
   * caller pickled, provided the pickle does not itself contain `END`.
   */
  lemma RequestRoundTrip(p: Pickler, call: Call, rs: seq<Recv>, run: Call -> Behaviour)
    requires RoundTrips(p)
    requires !ContainsSentinel(p.dumps(CallObj(call)))
    requires AllData(rs) && Flatten(rs) == Request(p, call)
    ensures Respond(rs, p, run) == Invoked(run(call))
  {
    var payload := p.dumps(CallObj(call));
    SentinelFraming(payload, rs);
    assert p.loads(payload) == Ok(CallObj(call));
  }

  /**
   * A remote call seen from the caller, served by a worker that calls
   * `handle_client(conn)`: a returning function gives back its
   * value and replays what it printed to stdout, while what it printed to
   * stderr is dropped; a raising `Exception` is re-raised after the remote
   * stderr, the remote traceback and the caller's own report; an error that
   * is not an `Exception` makes the worker close without a reply, so the
   * caller is left to unpickle an empty response.
   */
  lemma CallRoundTrip(envName: string, p: Pickler, call: Call, run: Call -> Behaviour,
                      request: seq<Recv>, response: seq<Recv>)
    requires RoundTrips(p)
    requires !ContainsSentinel(p.dumps(CallObj(call)))
    requires AllData(request) && Flatten(request) == Request(p, call)
    requires AllData(response) && Flatten(response) == ReplyBytes(Respond(request, p, run), p)
    ensures var b := run(call);
            var eff := ExecuteSpec(envName, None, response, p);
            match b.outcome
            case Returns(v) => eff == Effect(Returned(v), b.out, "")
            case Raises(e) =>
              if e.isException then
                eff == Effect(Raised(e), "", b.err + "\n" + FormatExc(e) + "\n" + ErrorMessage(envName, e) + "\n")
              else
                eff == Answer(envName, p.loads([]))
  {
    RequestRoundTrip(p, call, request, run);
    var b := run(call);
    match b.outcome {
      case Returns(v) =>
        ResponseRoundTrip(envName, response, p, Success(v, b.out, b.err));
      case Raises(e) =>
        if e.isException {
          ResponseRoundTrip(envName, response, p, Failure(e, b.err + "\n" + FormatExc(e)));
        } else {
          DrainAll(response, []);
          assert [] + Flatten(response) == [];
        }
    }
  }
}

=== FILE: io.dfy ===
/**
 * The operating-system objects the core touches, reduced to what the core
 * observes of them: a connected TCP socket, an in-memory text stream, the
 * interpreter's `sys.stdout`/`sys.stderr` slots and a caller's console.
 */
module Io {
  import opened Wrappers
  import opened Pickling

  /** What one `recv(4096)` returns: some bytes (empty at end of stream) or a raised error. */
  datatype Recv = Packet(bytes: seq<byte>) | RecvError(error: Exc)

  /** What a read loop ends with: the bytes gathered, or the error a `recv` raised. */
  datatype ReadOutcome = Received(data: seq<byte>) | ReadFailed(error: Exc)

  function Bytes(r: Recv): seq<byte>
  {
    if r.Packet? then r.bytes else []
  }

  /** The bytes carried by a run of `recv` results, in order. */
  function Flatten(rs: seq<Recv>): seq<byte>
  {
    if rs == [] then [] else Bytes(rs[0]) + Flatten(rs[1..])
  }

  /** Every result is a non-empty packet: no error and no end of stream. */
  predicate AllData(rs: seq<Recv>)
  {
    forall i :: 0 <= i < |rs| ==> rs[i].Packet? && rs[i].bytes != []
  }

  lemma {:induction false} FlattenAppend(a: seq<Recv>, b: seq<Recv>)
    ensures Flatten(a + b) == Flatten(a) + Flatten(b)
  {
    if a == [] {
      assert a + b == b;
    } else {
      assert (a + b)[1..] == a[1..] + b;
      FlattenAppend(a[1..], b);
    }
  }

  /** Reading one more result extends the bytes read so far by that result's bytes. */
  lemma FlattenSnoc(rs: seq<Recv>, k: nat)
    requires k < |rs|
    ensures Flatten(rs[..k + 1]) == Flatten(rs[..k]) + Bytes(rs[k])
  {
    assert rs[..k + 1] == rs[..k] + [rs[k]];
    FlattenAppend(rs[..k], [rs[k]]);
    assert Flatten([rs[k]]) == Bytes(rs[k]) + Flatten([]);
  }

  /**
   * A connected TCP socket.  `incoming` is what the peer will deliver, one
   * element per `recv` call; once it is used up every `recv` reports end of
   * stream.  `connectError` is what `connect` will raise, if anything.
   */
  class Socket {
    var incoming: seq<Recv>
    var connectError: Option<Exc>
    var peer: Option<(string, int)>
    var sent: seq<byte>
    var closed: bool

    constructor (incoming: seq<Recv>, connectError: Option<Exc>)
      ensures this.incoming == incoming && this.connectError == connectError
      ensures peer == None && sent == [] && !closed
    {
      this.incoming := incoming;
      this.connectError := connectError;
      peer := None;
      sent := [];
      closed := false;
    }

    method Connect(host: string, port: int) returns (error: Option<Exc>)
      modifies this`peer
      ensures error == connectError
      ensures peer == if error.None? then Some((host, port)) else old(peer)
    {
      error := connectError;
      if error.None? {
        peer := Some((host, port));
      }
    }

    method Receive() returns (r: Recv)
      modifies this`incoming
      ensures old(incoming) == [] ==> r == Packet([]) && incoming == []
      ensures old(incoming) != [] ==> r == old(incoming)[0] && incoming == old(incoming)[1..]
    {
      if incoming == [] {
        r := Packet([]);
      } else {
        r := incoming[0];
        incoming := incoming[1..];
      }
    }

    method SendAll(data: seq<byte>)
      modifies this`sent
      ensures sent == old(sent) + data
    {
      sent := sent + data;
    }

    method Close()
      modifies this`closed
      ensures closed
    {
      closed := true;
    }
  }

  /** An `io.StringIO` or a process's real output stream. */
  class TextBuffer {
    var text: string
    var closed: bool

    constructor ()
      ensures text == "" && !closed
    {
      text := "";
      closed := false;
    }

    method Write(s: string)
      modifies this`text
      ensures text == old(text) + s
    {
      text := text + s;
    }

    method Close()
      modifies this`closed
      ensures closed
    {
      closed := true;
    }
  }

  /** The interpreter-wide slots `sys.stdout` and `sys.stderr` of a worker process. */
  class Sys {
    var stdout: TextBuffer
    var stderr: TextBuffer

    constructor (stdout: TextBuffer, stderr: TextBuffer)
      ensures this.stdout == stdout && this.stderr == stderr
    {
      this.stdout := stdout;
      this.stderr := stderr;
    }
  }

  /** What a calling process has printed to its standard output and standard error. */
  class Console {
    var out: string
    var err: string

    constructor ()
      ensures out == "" && err == ""
    {
      out := "";
      err := "";
    }

    /** `print(s, end='')` */
    method PrintOut(s: string)
      modifies this`out
      ensures out == old(out) + s
    {
      out := out + s;
    }

    /** `print(s, file=sys.stderr)` */
    method PrintErr(s: string)
      modifies this`err
      ensures err == old(err) + s + "\n"
    {
      err := err + s + "\n";
    }
  }
}

=== FILE: pickling.dfy ===
/**
 * The objects that travel between a caller and a worker, and cloudpickle as an
 * opaque pair of functions.  What a pickled closure means is not modelled: a
 * callable and its arguments are handles, and the pickler is only asked to
 * give back what it was given.
 */
module Pickling {
  import opened Wrappers

  type byte = b: int | 0 <= b < 256

  /** An arbitrary Python object, known only by identity. */
  datatype Value = Value(id: nat)

  /**
   * A raised Python exception: its class name, its message (what `str(e)`
   * gives), the stack frames the traceback lists, and whether the class
   * derives from `Exception` (false for `SystemExit`, `KeyboardInterrupt`
   * and other direct subclasses of `BaseException`).
   */
  datatype Exc = Exc(kind: string, message: string, frames: string, isException: bool)

  /** The tuple `(func, args, kwargs)` a caller ships to a worker. */
  datatype Call = Call(func: Value, args: seq<Value>, kwargs: map<string, Value>)

  /**
   * The dictionary a worker sends back: `{result, stdout, stderr}` when the
   * call returned, `{exception, stderr}` when it raised.
   */
  datatype Envelope =
    | Success(result: Value, stdout: string, stderr: string)
    | Failure(exception: Exc, stderr: string)

  /** What `cloudpickle.loads` may produce: a call tuple, an envelope or anything else. */
  datatype Obj = CallObj(call: Call) | EnvObj(envelope: Envelope) | OtherObj(value: Value)

  /** `cloudpickle.dumps` and `cloudpickle.loads`; `loads` raises on bytes it cannot read. */
  datatype Pickler = Pickler(dumps: Obj -> seq<byte>, loads: seq<byte> -> Result<Obj, Exc>)

  /** The one property the model relies on: unpickling what was pickled gives it back. */
  ghost predicate RoundTrips(p: Pickler)
  {
    forall o :: p.loads(p.dumps(o)) == Ok(o)
  }

  /** The error raised when the unpickled request is not a `(func, args, kwargs)` triple. */
  const UnpackError: Exc := Exc("ValueError", "not enough values to unpack", "", true)

  /** The error the client meets when the unpickled response is not an envelope. */
  const NotAnEnvelope: Exc := Exc("TypeError", "response is not an envelope", "", true)

  /**
   * The last line of a traceback: the exception's type, then `: ` and its
   * message only when the message is not empty.
   */
  function ExceptionLine(e: Exc): string
  {
    e.kind + (if e.message == "" then "" else ": " + e.message) + "\n"
  }

  /** `traceback.format_exc()` while `e` is being handled. */
  function FormatExc(e: Exc): string
  {
    "Traceback (most recent call last):\n" + e.frames + ExceptionLine(e)
  }
}

=== FILE: registry.dfy ===
/**
 * The worker registry (`VirtualEnvManager`): a process-wide singleton that,
 * from a configuration, locates or builds each environment, allocates a
 * loopback port, launches a worker process on it and records
 * `workers[name] = {process, port}`; at exit it stops every worker.
 *
 * The operating system is the class `Os`: the ports `bind(('', 0))` will
 * answer, in order, logs of the commands run and launched and of the signals
 * sent, and fixed answers for which paths exist, which commands fail and
 * which processes exit within the grace period.
 */
module Registry {
  import opened Wrappers
  import opened Pickling

  type Port = p: int | 0 <= p < 0x1_0000

  /** A launched process, known by the position of its command in `Os.launched`. */
  datatype Process = Process(pid: nat)

  /** `{'process': proc, 'port': port}` */
  datatype WorkerInfo = WorkerInfo(process: Process, port: Port)

  /** `proc.terminate()` sends SIGTERM, `proc.kill()` SIGKILL. */
  datatype Signal = Sigterm(proc: Process) | Sigkill(proc: Process)

  /** One entry under `environments:` in the configuration file. */
  datatype EnvConfig = EnvConfig(
    existingEnvPath: Option<string>,
    pythonVersion: Option<string>,
    requirementsFile: Option<string>,
    packages: seq<string>)

  /** The loaded configuration: its environments in file order. */
  datatype Config = Config(environments: seq<(string, EnvConfig)>)

  /** The environments of a configuration are the keys of a mapping, so their names differ. */
  predicate NamesDistinct(envs: seq<(string, EnvConfig)>)
  {
    forall i, j :: 0 <= i < j < |envs| ==> envs[i].0 != envs[j].0
  }

  const NeedConfigError: Exc := Exc("ValueError", "First initialization requires a config_file", "", true)
  const SingletonError: Exc := Exc("Exception", "This class is a singleton", "", true)

  // ---------------------------------------------------------------- paths

  /** `os.path.join(a, b)` */
  function Join(a: string, b: string): string
  {
    if b != "" && b[0] == '/' then b
    else if a == "" || a[|a| - 1] == '/' then a + b
    else a + "/" + b
  }

  /**
   * `os.path.abspath(p)` relative to the working directory `cwd`, without the
   * normalisation `abspath` applies: `.`, `..`, repeated `/` and a trailing
   * `/` are kept.
   */
  function AbsPath(cwd: string, p: string): string
  {
    if p != "" && p[0] == '/' then p else Join(cwd, p)
  }

  /** `str(n)` */
  function DecimalString(n: nat): string
  {
    var digit := ('0' as int + n % 10) as char;
    if n < 10 then [digit] else DecimalString(n / 10) + [digit]
  }

  /** Python truth of an optional string: absent and `''` are both false. */
  predicate Truthy(s: Option<string>)
  {
    s.Some? && s.value != ""
  }

  /** The directory an environment lives in: the external path made absolute, or `base_dir/name`. */
  function EnvPath(cwd: string, baseDir: string, name: string, cfg: EnvConfig): (path: string)
    ensures Truthy(cfg.existingEnvPath) ==> path == AbsPath(cwd, cfg.existingEnvPath.value)
    ensures !Truthy(cfg.existingEnvPath) && name != "" && name[0] != '/' && baseDir != "" ==>
              path == if baseDir[|baseDir| - 1] == '/' then baseDir + name else baseDir + "/" + name
  {
    if Truthy(cfg.existingEnvPath) then AbsPath(cwd, cfg.existingEnvPath.value)
    else Join(baseDir, name)
  }

  /** `env_paths` after the first environments of a configuration have been set up. */
  function EnvPathMap(envs: seq<(string, EnvConfig)>, cwd: string, baseDir: string): map<string, string>
  {
    if envs == [] then map[]
    else
      var last := envs[|envs| - 1];
      EnvPathMap(envs[..|envs| - 1], cwd, baseDir)[last.0 := EnvPath(cwd, baseDir, last.0, last.1)]
  }

  function NamesOf(envs: seq<(string, EnvConfig)>): set<string>
  {
    if envs == [] then {} else NamesOf(envs[..|envs| - 1]) + {envs[|envs| - 1].0}
  }

  function PortsOf(workers: map<string, WorkerInfo>): set<Port>
  {
    set n | n in workers :: workers[n].port
  }

  lemma {:induction false} NamesOfDistinct(envs: seq<(string, EnvConfig)>, i: nat)
    requires NamesDistinct(envs) && i < |envs|
    ensures envs[i].0 !in NamesOf(envs[..i])
    ensures NamesOf(envs[..i + 1]) == NamesOf(envs[..i]) + {envs[i].0}
  {
    assert envs[..i + 1][..i] == envs[..i];
    NamesOfBelow(envs, i);
  }

  lemma {:induction false} NamesOfBelow(envs: seq<(string, EnvConfig)>, i: nat)
    requires i <= |envs|
    ensures forall n :: n in NamesOf(envs[..i]) ==> exists j :: 0 <= j < i && envs[j].0 == n
  {
    if i > 0 {
      assert envs[..i][..i - 1] == envs[..i - 1];
      NamesOfBelow(envs, i - 1);
    }
  }

  // ------------------------------------------------- create_virtualenv

  /** The interpreter that creates the environment: `python_version`, default `python3`. */
  function Interpreter(cfg: EnvConfig): string
  {
    if cfg.pythonVersion.Some? then cfg.pythonVersion.value else "python3"
  }

  function PipPath(envPath: string): string
  {
    Join(Join(envPath, "bin"), "pip")
  }

  function VenvCommand(envPath: string, cfg: EnvConfig): seq<string>
  {
    [Interpreter(cfg), "-m", "venv", envPath]
  }

  /**
   * The `check_call` commands `create_virtualenv` issues, in order, when none
   * of them fails.
   */
  function VenvPlan(envPath: string, cfg: EnvConfig, pathExists: bool): seq<seq<string>>
  {
    var pip := PipPath(envPath);
    (if pathExists then [] else [VenvCommand(envPath, cfg)])
    + [[pip, "install", "--upgrade", "pip"], [pip, "install", "cloudpickle"]]
    + (if Truthy(cfg.requirementsFile) then [[pip, "install", "-r", cfg.requirementsFile.value]] else [])
    + (if cfg.packages != [] then [[pip, "install"] + cfg.packages] else [])
  }

  /** The environment is created, with `python_version` or else `python3`, exactly when its path is missing, and first. */
  lemma VenvOnlyWhenMissing(envPath: string, cfg: EnvConfig, pathExists: bool)
    ensures var plan := VenvPlan(envPath, cfg, pathExists);
            && (VenvCommand(envPath, cfg) in plan <==> !pathExists)
            && (!pathExists ==> plan[0] == [if cfg.pythonVersion.Some? then cfg.pythonVersion.value else "python3",
                                            "-m", "venv", envPath])
            && (forall i :: (if pathExists then 0 else 1) <= i < |plan| ==>
                  |plan[i]| >= 2 && plan[i][..2] == [PipPath(envPath), "install"])
  {
    var plan := VenvPlan(envPath, cfg, pathExists);
    var k := if pathExists then 0 else 1;
    forall i | k <= i < |plan|
      ensures |plan[i]| >= 2 && plan[i][..2] == [PipPath(envPath), "install"]
    {
    }
    if pathExists {
      assert forall i :: 0 <= i < |plan| ==> plan[i][1] != VenvCommand(envPath, cfg)[1];
    }
  }

  /**
   * Whatever the configuration, pip is upgraded and then cloudpickle is
   * installed; the requirements file is installed next only when one is
   * named, and the package list last only when it is not empty.
   */
  lemma PipSteps(envPath: string, cfg: EnvConfig, pathExists: bool)
    ensures var plan := VenvPlan(envPath, cfg, pathExists);
            var k := if pathExists then 0 else 1;
            var pip := PipPath(envPath);
            && |plan| == k + 2 + (if Truthy(cfg.requirementsFile) then 1 else 0)
                               + (if cfg.packages != [] then 1 else 0)
            && plan[k] == [pip, "install", "--upgrade", "pip"]
            && plan[k + 1] == [pip, "install", "cloudpickle"]
            && (Truthy(cfg.requirementsFile) ==> plan[k + 2] == [pip, "install", "-r", cfg.requirementsFile.value])
            && (cfg.packages != [] ==> plan[|plan| - 1] == [pip, "install"] + cfg.packages)
  {
  }

  /** The commands `check_call` actually runs from a plan: up to and including the first that fails. */
  function Executed(plan: seq<seq<string>>, callError: seq<string> -> Option<Exc>): seq<seq<string>>
  {
    if plan == [] then []
    else if callError(plan[0]).Some? then [plan[0]]
    else [plan[0]] + Executed(plan[1..], callError)
  }

  /** The error the first failing command of a plan raises, if one fails. */
  function PlanError(plan: seq<seq<string>>, callError: seq<string> -> Option<Exc>): Option<Exc>
  {
    if plan == [] then None
    else if callError(plan[0]).Some? then callError(plan[0])
    else PlanError(plan[1..], callError)
  }

  /**
   * A plan fails exactly when one of its commands fails, and then with the
   * error of the first command that fails.
   */
  lemma {:induction false} PlanErrorIsFirst(plan: seq<seq<string>>, callError: seq<string> -> Option<Exc>)
    ensures var e := PlanError(plan, callError);
            && (e.None? <==> forall i :: 0 <= i < |plan| ==> callError(plan[i]).None?)
            && (e.Some? ==>
                  exists i :: 0 <= i < |plan| && callError(plan[i]) == e &&
                              forall j :: 0 <= j < i ==> callError(plan[j]).None?)
  {
    if plan != [] && callError(plan[0]).None? {
      PlanErrorIsFirst(plan[1..], callError);
      var e := PlanError(plan, callError);
      if e.Some? {
        var i :| 0 <= i < |plan[1..]| && callError(plan[1..][i]) == e &&
                 forall j :: 0 <= j < i ==> callError(plan[1..][j]).None?;
        assert callError(plan[i + 1]) == e;
        assert forall j :: 0 <= j < i + 1 ==> callError(plan[j]).None? by {
          forall j | 0 <= j < i + 1 ensures callError(plan[j]).None? {
            if j > 0 { assert plan[j] == plan[1..][j - 1]; }
          }
        }
      } else {
        assert forall i :: 0 <= i < |plan| ==> callError(plan[i]).None? by {
          forall i | 0 <= i < |plan| ensures callError(plan[i]).None? {
            if i > 0 { assert plan[i] == plan[1..][i - 1]; }
          }
        }
      }
    } else if plan != [] {
      assert callError(plan[0]) == PlanError(plan, callError);
    }
  }

  /**
   * Running a plan runs a prefix of it: all of it when no command fails,
   * otherwise up to the failing command, which is the last one run.
   */
  lemma {:induction false} ExecutedPrefix(plan: seq<seq<string>>, callError: seq<string> -> Option<Exc>)
    ensures var run := Executed(plan, callError);
            && |run| <= |plan| && run == plan[..|run|]
            && (PlanError(plan, callError).None? ==> run == plan)
            && (PlanError(plan, callError).Some? ==> run != [] && callError(run[|run| - 1]) == PlanError(plan, callError))
            && (forall i :: 0 <= i < |run| - 1 ==> callError(run[i]).None?)
  {
    if plan != [] && callError(plan[0]).None? {
      ExecutedPrefix(plan[1..], callError);
      var rest := Executed(plan[1..], callError);
      assert plan[..1 + |rest|] == [plan[0]] + plan[1..][..|rest|];
    }
  }

  // ---------------------------------------------------------------- ports

  predicate HasFresh(ports: seq<Port>, used: set<Port>)
  {
    exists j :: 0 <= j < |ports| && ports[j] !in used
  }

  /** Where the retry loop of `find_free_port` stops: the first drawn port not already used. */
  function FirstFresh(ports: seq<Port>, used: set<Port>): (i: nat)
    requires HasFresh(ports, used)
    ensures i < |ports| && ports[i] !in used
    ensures forall j :: 0 <= j < i ==> ports[j] in used
    decreases |ports|
  {
    if ports[0] !in used then 0
    else
      assert HasFresh(ports[1..], used) by {
        var j :| 0 <= j < |ports| && ports[j] !in used;
        assert ports[1..][j - 1] == ports[j];
      }
      1 + FirstFresh(ports[1..], used)
  }

  /** How many successive `find_free_port` calls the answers `ports` can serve, starting from `used`. */
  function FreshDraws(ports: seq<Port>, used: set<Port>): nat
    decreases |ports|
  {
    if ports == [] then 0
    else if ports[0] in used then FreshDraws(ports[1..], used)
    else 1 + FreshDraws(ports[1..], used + {ports[0]})
  }

  lemma {:induction false} FreshDrawsPositive(ports: seq<Port>, used: set<Port>)
    requires FreshDraws(ports, used) >= 1
    ensures HasFresh(ports, used)
    decreases |ports|
  {
    if ports[0] in used {
      FreshDrawsPositive(ports[1..], used);
      var j :| 0 <= j < |ports[1..]| && ports[1..][j] !in used;
      assert ports[j + 1] !in used;
    } else {
      assert ports[0] !in used;
    }
  }

  /** One allocation uses up exactly one of the fresh answers still to come. */
  lemma {:induction false} FreshDrawsAfterAllocation(ports: seq<Port>, used: set<Port>)
    requires HasFresh(ports, used)
    ensures var i := FirstFresh(ports, used);
            FreshDraws(ports[i + 1..], used + {ports[i]}) == FreshDraws(ports, used) - 1
    decreases |ports|
  {
    if ports[0] in used {
      FreshDrawsAfterAllocation(ports[1..], used);
      var i := FirstFresh(ports[1..], used);
      assert ports[1..][i + 1..] == ports[i + 2..];
    }
  }

  // ------------------------------------------------------------ processes

  /** The processes recorded in a worker table. */
  function ProcessesOf(workers: map<string, WorkerInfo>): set<Process>
  {
    set n | n in workers :: workers[n].process
  }

  /**
   * The signals `stop_workers` sends to `procs`: every one is terminated,
   * exactly those that do not exit within the timeout are then killed, each
   * kill right after that process's terminate, and no other process is touched.
   */
  ghost predicate Escalation(log: seq<Signal>, procs: set<Process>, exits: Process -> bool)
  {
    && (forall p :: p in procs ==> Sigterm(p) in log)
    && (forall p :: p in procs ==> (Sigkill(p) in log <==> !exits(p)))
    && (forall i :: 0 <= i < |log| ==> log[i].proc in procs)
    && (forall i :: 0 <= i < |log| && log[i].Sigkill? ==> 0 < i && log[i - 1] == Sigterm(log[i].proc))
  }

  /** `[python, worker.py, '--env-name', name, '--port', str(port)]` */
  function WorkerCommand(workerScript: string, envName: string, envPath: string, port: Port): seq<string>
  {
    [Join(Join(envPath, "bin"), "python"), workerScript, "--env-name", envName, "--port", DecimalString(port)]
  }

  /** The machine the registry runs on. */
  class Os {
    var ports: seq<Port>
    var ran: seq<seq<string>>
    var launched: seq<seq<string>>
    var signals: seq<Signal>
    const cwd: string
    const workerScript: string
    const pathExists: string -> bool
    const callError: seq<string> -> Option<Exc>
    const spawnError: seq<string> -> Option<Exc>
    const exitsInTime: Process -> bool

    constructor (ports: seq<Port>, cwd: string, workerScript: string,
                 pathExists: string -> bool, callError: seq<string> -> Option<Exc>,
                 spawnError: seq<string> -> Option<Exc>, exitsInTime: Process -> bool)
      ensures this.ports == ports && ran == [] && launched == [] && signals == []
      ensures this.cwd == cwd && this.workerScript == workerScript
      ensures this.pathExists == pathExists && this.callError == callError
      ensures this.spawnError == spawnError && this.exitsInTime == exitsInTime
    {
      this.ports := ports;
      ran, launched, signals := [], [], [];
      this.cwd := cwd;
      this.workerScript := workerScript;
      this.pathExists := pathExists;
      this.callError := callError;
      this.spawnError := spawnError;
      this.exitsInTime := exitsInTime;
    }

    /** Bind a socket to port 0, read the port the OS chose, close the socket. */
    method BindEphemeral() returns (port: Port)
      requires ports != []
      modifies this`ports
      ensures port == old(ports)[0] && ports == old(ports)[1..]
    {
      port := ports[0];
      ports := ports[1..];
    }

    /** `subprocess.check_call(cmd)`: `error` is what it raises. */
    method CheckCall(cmd: seq<string>) returns (error: Option<Exc>)
      modifies this`ran
      ensures ran == old(ran) + [cmd] && error == callError(cmd)
    {
      ran := ran + [cmd];
      error := callError(cmd);
    }

    /** `subprocess.Popen(cmd)` */
    method Popen(cmd: seq<string>) returns (r: Result<Process, Exc>)
      modifies this`launched
      ensures spawnError(cmd).Some? ==> r == Err(spawnError(cmd).value) && launched == old(launched)
      ensures spawnError(cmd).None? ==> r == Ok(Process(|old(launched)|)) && launched == old(launched) + [cmd]
    {
      if spawnError(cmd).Some? {
        r := Err(spawnError(cmd).value);
      } else {
        r := Ok(Process(|launched|));
        launched := launched + [cmd];
      }
    }

    method Terminate(p: Process)
      modifies this`signals
      ensures signals == old(signals) + [Sigterm(p)]
    {
      signals := signals + [Sigterm(p)];
    }

    /** `proc.wait(timeout=5)`: true when the process exited in time, false on `TimeoutExpired`. */
    method Wait(p: Process) returns (exited: bool)
      ensures exited == exitsInTime(p)
    {
      exited := exitsInTime(p);
    }

    method Kill(p: Process)
      modifies this`signals
      ensures signals == old(signals) + [Sigkill(p)]
    {
      signals := signals + [Sigkill(p)];
    }
  }

  /**
   * `create_virtualenv(env_path, env_config)`: runs the plan's commands until
   * one fails; `error` is what that one raised.
   */
  method CreateVirtualenv(envPath: string, cfg: EnvConfig, os: Os) returns (error: Option<Exc>)
    modifies os`ran
    ensures var plan := VenvPlan(envPath, cfg, os.pathExists(envPath));
            os.ran == old(os.ran) + Executed(plan, os.callError) &&
            error == PlanError(plan, os.callError)
  {
    ghost var plan := VenvPlan(envPath, cfg, os.pathExists(envPath));
    var pythonVersion := Interpreter(cfg);
    var pip := PipPath(envPath);
    ghost var reqs := if Truthy(cfg.requirementsFile) then [[pip, "install", "-r", cfg.requirementsFile.value]] else [];
    ghost var pkgs := if cfg.packages != [] then [[pip, "install"] + cfg.packages] else [];
    ghost var afterCloudpickle := reqs + pkgs;
    ghost var afterUpgrade := [[pip, "install", "cloudpickle"]] + afterCloudpickle;
    ghost var afterCreate := [[pip, "install", "--upgrade", "pip"]] + afterUpgrade;
    if !os.pathExists(envPath) {
      assert plan == [[pythonVersion, "-m", "venv", envPath]] + afterCreate;
      error := Step(os, [pythonVersion, "-m", "venv", envPath], afterCreate, plan, old(os.ran));
      if error.Some? { return; }
    } else {
      assert plan == afterCreate;
    }
    error := Step(os, [pip, "install", "--upgrade", "pip"], afterUpgrade, plan, old(os.ran));
    if error.Some? { return; }
    error := Step(os, [pip, "install", "cloudpickle"], afterCloudpickle, plan, old(os.ran));
    if error.Some? { return; }
    var requirementsFile := cfg.requirementsFile;
    if Truthy(requirementsFile) {
      error := Step(os, [pip, "install", "-r", requirementsFile.value], pkgs, plan, old(os.ran));
      if error.Some? { return; }
    } else {
      assert afterCloudpickle == pkgs;
    }
    var packages := cfg.packages;
    if packages != [] {
      assert pkgs == [[pip, "install"] + packages] + [];
      error := Step(os, [pip, "install"] + packages, [], plan, old(os.ran));
      if error.Some? { return; }
    } else {
      assert pkgs == [];
    }
  }

  /**
   * One `check_call` of a plan of which the commands run so far were added
   * to `ran0` and `[cmd] + rest` remain.
   */
  method Step(os: Os, cmd: seq<string>, ghost rest: seq<seq<string>>, ghost plan: seq<seq<string>>,
              ghost ran0: seq<seq<string>>) returns (error: Option<Exc>)
    requires ran0 + Executed(plan, os.callError) == os.ran + Executed([cmd] + rest, os.callError)
    requires PlanError(plan, os.callError) == PlanError([cmd] + rest, os.callError)
    modifies os`ran
    ensures error == os.callError(cmd)
    ensures error.Some? ==> ran0 + Executed(plan, os.callError) == os.ran && error == PlanError(plan, os.callError)
    ensures error.None? ==>
              ran0 + Executed(plan, os.callError) == os.ran + Executed(rest, os.callError) &&
              PlanError(plan, os.callError) == PlanError(rest, os.callError)
  {
    assert ([cmd] + rest)[0] == cmd && ([cmd] + rest)[1..] == rest;
    error := os.CheckCall(cmd);
  }

  /** The commands set-up runs for an environment: none for an external path, else the creation plan. */
  function BuildPlan(envPath: string, cfg: EnvConfig, pathExists: bool): seq<seq<string>>
  {
    if Truthy(cfg.existingEnvPath) then [] else VenvPlan(envPath, cfg, pathExists)
  }

  /** No `check_call` and no `Popen` ever raises. */
  ghost predicate NothingFails(os: Os)
  {
    && (forall c :: os.callError(c).None?)
    && (forall c :: os.spawnError(c).None?)
  }

  // ------------------------------------------------- the loop of __init__

  /** The directory of a configured environment, settled as `__init__` does. */
  function PathOf(os: Os, baseDir: string, env: (string, EnvConfig)): string
  {
    EnvPath(os.cwd, baseDir, env.0, env.1)
  }

  /** The `check_call` commands setting up one environment would run if none failed. */
  function PlanOf(os: Os, baseDir: string, env: (string, EnvConfig)): seq<seq<string>>
  {
    BuildPlan(PathOf(os, baseDir, env), env.1, os.pathExists(PathOf(os, baseDir, env)))
  }

  /** The commands `check_call` runs while the environments `envs` are set up one after another. */
  function RanFor(os: Os, baseDir: string, envs: seq<(string, EnvConfig)>): seq<seq<string>>
  {
    if envs == [] then []
    else RanFor(os, baseDir, envs[..|envs| - 1]) + Executed(PlanOf(os, baseDir, envs[|envs| - 1]), os.callError)
  }

  lemma RanForSnoc(os: Os, baseDir: string, envs: seq<(string, EnvConfig)>, i: nat)
    requires i < |envs|
    ensures RanFor(os, baseDir, envs[..i + 1]) == RanFor(os, baseDir, envs[..i]) + Executed(PlanOf(os, baseDir, envs[i]), os.callError)
  {
    assert envs[..i + 1][..i] == envs[..i];
  }

  /** Running environment `i`'s commands extends the commands run for the ones before it. */
  lemma RanForStep(os: Os, baseDir: string, envs: seq<(string, EnvConfig)>, i: nat,
                   ran0: seq<seq<string>>, ran1: seq<seq<string>>)
    requires i < |envs| && ran1 == ran0 + RanFor(os, baseDir, envs[..i])
    ensures ran1 + Executed(PlanOf(os, baseDir, envs[i]), os.callError) == ran0 + RanFor(os, baseDir, envs[..i + 1])
  {
    RanForSnoc(os, baseDir, envs, i);
    AppendAssoc(ran0, RanFor(os, baseDir, envs[..i]), Executed(PlanOf(os, baseDir, envs[i]), os.callError));
  }

  lemma AppendAssoc<T>(a: seq<T>, b: seq<T>, c: seq<T>)
    ensures (a + b) + c == a + (b + c)
  {
  }

  /**
   * The first `k` environments of `envs` are set up: each one's commands all
   * succeeded, and its worker was launched, the `j`-th as launch number
   * `|launched0| + j`, on the port `workers` records for it.  Nothing else
   * was launched.
   */
  ghost predicate SetUpDone(os: Os, baseDir: string, envs: seq<(string, EnvConfig)>, k: nat,
                            workers: map<string, WorkerInfo>, launched0: seq<seq<string>>, launched: seq<seq<string>>)
  {
    && k <= |envs|
    && workers.Keys == NamesOf(envs[..k])
    && |launched| == |launched0| + k && launched[..|launched0|] == launched0
    && PlansSucceed(os, baseDir, envs, k)
    && WorkersLaunched(os, baseDir, envs, k, workers, |launched0|, launched)
  }

  /** The commands of each of the first `k` environments all succeed. */
  ghost predicate PlansSucceed(os: Os, baseDir: string, envs: seq<(string, EnvConfig)>, k: nat)
    requires k <= |envs|
  {
    forall j {:trigger PlanOf(os, baseDir, envs[j])} :: 0 <= j < k ==>
      PlanError(PlanOf(os, baseDir, envs[j]), os.callError).None?
  }

  /**
   * Each of the first `k` environments has a worker whose launch, number
   * `first + j` for the `j`-th, started its worker script on its port and
   * did not fail.
   */
  ghost predicate WorkersLaunched(os: Os, baseDir: string, envs: seq<(string, EnvConfig)>, k: nat,
                                  workers: map<string, WorkerInfo>, first: nat, launched: seq<seq<string>>)
    requires k <= |envs| && first + k <= |launched|
  {
    && (forall j :: 0 <= j < k ==>
          && envs[j].0 in workers
          && workers[envs[j].0].process == Process(first + j)
          && launched[first + j] == WorkerCommand(os.workerScript, envs[j].0, PathOf(os, baseDir, envs[j]), workers[envs[j].0].port))
    && forall i :: first <= i < first + k ==> os.spawnError(launched[i]).None?
  }

  lemma PlansSucceedStep(os: Os, baseDir: string, envs: seq<(string, EnvConfig)>, i: nat)
    requires i < |envs| && PlansSucceed(os, baseDir, envs, i)
    requires PlanError(PlanOf(os, baseDir, envs[i]), os.callError).None?
    ensures PlansSucceed(os, baseDir, envs, i + 1)
  {
    forall j | 0 <= j < i + 1
      ensures PlanError(PlanOf(os, baseDir, envs[j]), os.callError).None?
    {
    }
  }

  lemma WorkersLaunchedStep(os: Os, baseDir: string, envs: seq<(string, EnvConfig)>, i: nat,
                            workers: map<string, WorkerInfo>, first: nat, launched: seq<seq<string>>, port: Port)
    requires i < |envs| && |launched| == first + i
    requires WorkersLaunched(os, baseDir, envs, i, workers, first, launched)
    requires envs[i].0 !in workers
    requires os.spawnError(WorkerCommand(os.workerScript, envs[i].0, PathOf(os, baseDir, envs[i]), port)).None?
    ensures WorkersLaunched(os, baseDir, envs, i + 1,
                            workers[envs[i].0 := WorkerInfo(Process(|launched|), port)], first,
                            launched + [WorkerCommand(os.workerScript, envs[i].0, PathOf(os, baseDir, envs[i]), port)])
  {
    var workers1 := workers[envs[i].0 := WorkerInfo(Process(|launched|), port)];
    var launched1 := launched + [WorkerCommand(os.workerScript, envs[i].0, PathOf(os, baseDir, envs[i]), port)];
    forall j | 0 <= j < i + 1
      ensures && envs[j].0 in workers1
              && workers1[envs[j].0].process == Process(first + j)
              && launched1[first + j] == WorkerCommand(os.workerScript, envs[j].0, PathOf(os, baseDir, envs[j]), workers1[envs[j].0].port)
    {
      if j < i {
        assert envs[j].0 in workers && envs[j].0 != envs[i].0;
        assert launched1[first + j] == launched[first + j];
      }
    }
    forall l | first <= l < first + i + 1
      ensures os.spawnError(launched1[l]).None?
    {
      if l < first + i {
        assert launched1[l] == launched[l];
      }
    }
  }

  /**
   * Set-up stopped at environment `k` with the error `e`: the environments
   * before it are set up, its own commands ran up to the failing one and no
   * later command ran; `e` is its plan's error, or else what launching its
   * worker raised, on the port drawn last: the last bind answer consumed
   * between `ports0` and `ports`.
   */
  ghost predicate SetUpFailedAt(os: Os, baseDir: string, envs: seq<(string, EnvConfig)>, k: nat,
                                workers: map<string, WorkerInfo>, usedPorts: set<Port>,
                                ports0: seq<Port>, ports: seq<Port>,
                                ran0: seq<seq<string>>, ran: seq<seq<string>>,
                                launched0: seq<seq<string>>, launched: seq<seq<string>>, e: Exc)
  {
    && k < |envs|
    && SetUpDone(os, baseDir, envs, k, workers, launched0, launched)
    && ran == ran0 + RanFor(os, baseDir, envs[..k + 1])
    && Consumed(ports0, ports)
    && var failed := PlanError(PlanOf(os, baseDir, envs[k]), os.callError);
       && (failed.Some? ==> failed == Some(e))
       && (failed.None? ==>
             && |ports| < |ports0|
             && var p := ports0[|ports0| - |ports| - 1];
                && p in usedPorts && p !in PortsOf(workers)
                && os.spawnError(WorkerCommand(os.workerScript, envs[k].0, PathOf(os, baseDir, envs[k]), p)) == Some(e))
  }

  /** `ports` is what is left of the bind answers `ports0` once some have been consumed from the front. */
  predicate Consumed(ports0: seq<Port>, ports: seq<Port>)
  {
    |ports| <= |ports0| && ports == ports0[|ports0| - |ports|..]
  }

  /** Consuming the answers of `mid` up to index `i` consumes them from `ports0`, `mid[i]` last. */
  lemma ConsumedDraw(ports0: seq<Port>, mid: seq<Port>, i: nat, ports: seq<Port>)
    requires Consumed(ports0, mid) && i < |mid| && ports == mid[i + 1..]
    ensures Consumed(ports0, ports) && |ports| < |ports0|
    ensures ports0[|ports0| - |ports| - 1] == mid[i]
  {
    assert ports0[|ports0| - |mid|..][i + 1..] == ports0[|ports0| - |ports|..];
  }

  /** What the loop of `__init__` leaves: every environment set up, or a stop at the first failing one. */
  ghost predicate SetUpOutcome(os: Os, baseDir: string, envs: seq<(string, EnvConfig)>,
                               workers: map<string, WorkerInfo>, usedPorts: set<Port>,
                               ports0: seq<Port>, ports: seq<Port>,
                               ran0: seq<seq<string>>, ran: seq<seq<string>>,
                               launched0: seq<seq<string>>, launched: seq<seq<string>>, error: Option<Exc>)
  {
    if error.None? then
      SetUpDone(os, baseDir, envs, |envs|, workers, launched0, launched) && ran == ran0 + RanFor(os, baseDir, envs)
    else
      exists k: nat :: SetUpFailedAt(os, baseDir, envs, k, workers, usedPorts, ports0, ports, ran0, ran, launched0, launched, error.value)
  }

  /** A set-up in which no command and no launch can fail succeeds. */
  lemma SetUpSucceedsWhenNothingFails(os: Os, baseDir: string, envs: seq<(string, EnvConfig)>,
                                      workers: map<string, WorkerInfo>, usedPorts: set<Port>,
                                      ports0: seq<Port>, ports: seq<Port>,
                                      ran0: seq<seq<string>>, ran: seq<seq<string>>,
                                      launched0: seq<seq<string>>, launched: seq<seq<string>>, error: Option<Exc>)
    requires SetUpOutcome(os, baseDir, envs, workers, usedPorts, ports0, ports, ran0, ran, launched0, launched, error)
    ensures NothingFails(os) ==> error.None?
  {
    if error.Some? && NothingFails(os) {
      var k: nat :| SetUpFailedAt(os, baseDir, envs, k, workers, usedPorts, ports0, ports, ran0, ran, launched0, launched, error.value);
      PlanErrorIsFirst(PlanOf(os, baseDir, envs[k]), os.callError);
    }
  }

  /**
   * Set-up stops at environment `i` when its plan fails, or when launching
   * its worker on the `port` it has just drawn fails.
   */
  lemma SetUpStopsAt(os: Os, baseDir: string, envs: seq<(string, EnvConfig)>, i: nat,
                     workers: map<string, WorkerInfo>, usedPorts: set<Port>,
                     ports0: seq<Port>, ports: seq<Port>,
                     ran0: seq<seq<string>>, ran: seq<seq<string>>,
                     launched0: seq<seq<string>>, launched: seq<seq<string>>, e: Exc, port: Port)
    requires i < |envs| && SetUpDone(os, baseDir, envs, i, workers, launched0, launched)
    requires ran == ran0 + RanFor(os, baseDir, envs[..i + 1])
    requires Consumed(ports0, ports)
    requires var failed := PlanError(PlanOf(os, baseDir, envs[i]), os.callError);
             && (failed.Some? ==> failed == Some(e))
             && (failed.None? ==>
                   && |ports| < |ports0| && port == ports0[|ports0| - |ports| - 1]
                   && port in usedPorts && port !in PortsOf(workers)
                   && os.spawnError(WorkerCommand(os.workerScript, envs[i].0, PathOf(os, baseDir, envs[i]), port)) == Some(e))
    ensures SetUpOutcome(os, baseDir, envs, workers, usedPorts, ports0, ports, ran0, ran, launched0, launched, Some(e))
  {
    assert SetUpFailedAt(os, baseDir, envs, i, workers, usedPorts, ports0, ports, ran0, ran, launched0, launched, e);
  }

  /** Setting up one more environment, whose commands and launch succeed, extends a set-up. */
  lemma SetUpDoneStep(os: Os, baseDir: string, envs: seq<(string, EnvConfig)>, i: nat,
                      workers: map<string, WorkerInfo>, launched0: seq<seq<string>>, launched: seq<seq<string>>,
                      port: Port)
    requires i < |envs| && SetUpDone(os, baseDir, envs, i, workers, launched0, launched)
    requires envs[i].0 !in workers
    requires PlanError(PlanOf(os, baseDir, envs[i]), os.callError).None?
    requires os.spawnError(WorkerCommand(os.workerScript, envs[i].0, PathOf(os, baseDir, envs[i]), port)).None?
    ensures SetUpDone(os, baseDir, envs, i + 1,
                      workers[envs[i].0 := WorkerInfo(Process(|launched|), port)], launched0,
                      launched + [WorkerCommand(os.workerScript, envs[i].0, PathOf(os, baseDir, envs[i]), port)])
  {
    assert envs[..i + 1][..i] == envs[..i];
    PlansSucceedStep(os, baseDir, envs, i);
    WorkersLaunchedStep(os, baseDir, envs, i, workers, |launched0|, launched, port);
  }

  /**
   * Set-up gives each worker its own process, so stopping a registry built by
   * `__init__` signals each process once.
   */
  lemma SetUpProcessesDistinct(os: Os, baseDir: string, envs: seq<(string, EnvConfig)>, k: nat,
                               workers: map<string, WorkerInfo>, launched0: seq<seq<string>>, launched: seq<seq<string>>)
    requires SetUpDone(os, baseDir, envs, k, workers, launched0, launched)
    ensures DistinctProcesses(workers)
  {
    NumberedProcessesDistinct(envs, k, workers, |launched0|);
  }

  /** Workers numbered by their position in `envs` have distinct processes. */
  lemma NumberedProcessesDistinct(envs: seq<(string, EnvConfig)>, k: nat, workers: map<string, WorkerInfo>, first: nat)
    requires k <= |envs| && workers.Keys == NamesOf(envs[..k])
    requires forall j :: 0 <= j < k ==> envs[j].0 in workers && workers[envs[j].0].process == Process(first + j)
    ensures DistinctProcesses(workers)
  {
    NamesOfBelow(envs, k);
    forall a, b | a in workers && b in workers && a != b
      ensures workers[a].process != workers[b].process
    {
      var j :| 0 <= j < k && envs[j].0 == a;
      var l :| 0 <= l < k && envs[l].0 == b;
      assert workers[a].process == Process(first + j);
    }
  }

  /** When every environment's plan succeeds, so does every command run while setting them up. */
  lemma {:induction false} RanForSucceeded(os: Os, baseDir: string, envs: seq<(string, EnvConfig)>, k: nat)
    requires k <= |envs|
    requires forall j :: 0 <= j < k ==> PlanError(PlanOf(os, baseDir, envs[j]), os.callError).None?
    ensures forall c :: c in RanFor(os, baseDir, envs[..k]) ==> os.callError(c).None?
  {
    if k > 0 {
      RanForSucceeded(os, baseDir, envs, k - 1);
      PlanRunsWhole(PlanOf(os, baseDir, envs[k - 1]), os.callError);
      RanForSnoc(os, baseDir, envs, k - 1);
    }
  }

  /** A plan without error runs whole, and each of its commands succeeds. */
  lemma PlanRunsWhole(plan: seq<seq<string>>, callError: seq<string> -> Option<Exc>)
    requires PlanError(plan, callError).None?
    ensures Executed(plan, callError) == plan
    ensures forall c :: c in plan ==> callError(c).None?
  {
    ExecutedPrefix(plan, callError);
    PlanErrorIsFirst(plan, callError);
  }

  /** A successful set-up ran only commands that succeed. */
  lemma SetUpOkCommandsSucceeded(os: Os, baseDir: string, envs: seq<(string, EnvConfig)>,
                                 workers: map<string, WorkerInfo>, usedPorts: set<Port>,
                                 ports0: seq<Port>, ports: seq<Port>,
                                 ran0: seq<seq<string>>, ran: seq<seq<string>>,
                                 launched0: seq<seq<string>>, launched: seq<seq<string>>)
    requires SetUpOutcome(os, baseDir, envs, workers, usedPorts, ports0, ports, ran0, ran, launched0, launched, None)
    ensures forall i :: |ran0| <= i < |ran| ==> os.callError(ran[i]).None?
  {
    RanForSucceeded(os, baseDir, envs, |envs|);
    assert envs[..|envs|] == envs;
    var run := RanFor(os, baseDir, envs[..|envs|]);
    assert ran == ran0 + run;
    forall i | |ran0| <= i < |ran|
      ensures os.callError(ran[i]).None?
    {
      assert ran[i] == run[i - |ran0|] && run[i - |ran0|] in run;
    }
  }

  /** A set-up launches only commands that succeed. */
  lemma SetUpLaunchesSucceeded(os: Os, baseDir: string, envs: seq<(string, EnvConfig)>, k: nat,
                               workers: map<string, WorkerInfo>, launched0: seq<seq<string>>, launched: seq<seq<string>>)
    requires SetUpDone(os, baseDir, envs, k, workers, launched0, launched)
    ensures forall i :: |launched0| <= i < |launched| ==> os.spawnError(launched[i]).None?
  {
  }

  /** The registry object. */
  class Manager {
    var workers: map<string, WorkerInfo>
    var usedPorts: set<Port>
    var envPaths: map<string, string>
    const baseDir: string

    /** Every recorded worker holds a used port, and no two workers share one. */
    ghost predicate Valid()
      reads this
    {
      && (forall n :: n in workers ==> workers[n].port in usedPorts)
      && (forall a, b :: a in workers && b in workers && a != b ==> workers[a].port != workers[b].port)
    }

    constructor (baseDir: string)
      ensures Valid()
      ensures workers == map[] && usedPorts == {} && envPaths == map[] && this.baseDir == baseDir
    {
      workers, usedPorts, envPaths := map[], {}, map[];
      this.baseDir := baseDir;
    }

    /** `find_free_port()`: draw ports until one is not used, record it and return it. */
    method FindFreePort(os: Os) returns (port: Port)
      requires HasFresh(os.ports, usedPorts)
      modifies this`usedPorts, os`ports
      ensures var i := FirstFresh(old(os.ports), old(usedPorts));
              port == old(os.ports)[i] && os.ports == old(os.ports)[i + 1..]
      ensures port !in old(usedPorts) && usedPorts == old(usedPorts) + {port}
    {
      port := os.BindEphemeral();
      while port in usedPorts
        invariant |os.ports| < |old(os.ports)|
        invariant os.ports == old(os.ports)[|old(os.ports)| - |os.ports|..]
        invariant port == old(os.ports)[|old(os.ports)| - |os.ports| - 1]
        invariant forall j :: 0 <= j < |old(os.ports)| - |os.ports| - 1 ==> old(os.ports)[j] in usedPorts
        invariant usedPorts == old(usedPorts)
        decreases |os.ports|
      {
        assert os.ports != [] by {
          var j :| 0 <= j < |old(os.ports)| && old(os.ports)[j] !in usedPorts;
          assert j >= |old(os.ports)| - |os.ports|;
        }
        port := os.BindEphemeral();
      }
      usedPorts := usedPorts + {port};
    }

    /**
     * `start_worker(env_name, env_path)`: allocate a port, launch the worker
     * on it and record it under `envName`.  The port stays used even when
     * the launch fails.
     */
    method StartWorker(envName: string, envPath: string, os: Os) returns (error: Option<Exc>)
      requires Valid() && HasFresh(os.ports, usedPorts)
      modifies this`workers, this`usedPorts, os`ports, os`launched
      ensures Valid()
      ensures var i := FirstFresh(old(os.ports), old(usedPorts));
              var port := old(os.ports)[i];
              var cmd := WorkerCommand(os.workerScript, envName, envPath, port);
              && port !in old(usedPorts)
              && os.ports == old(os.ports)[i + 1..]
              && usedPorts == old(usedPorts) + {port}
              && error == os.spawnError(cmd)
              && (error.None? ==>
                    os.launched == old(os.launched) + [cmd] &&
                    workers == old(workers)[envName := WorkerInfo(Process(|old(os.launched)|), port)])
              && (error.Some? ==> os.launched == old(os.launched) && workers == old(workers))
    {
      var pythonPath := Join(Join(envPath, "bin"), "python");
      var scriptPath := os.workerScript;
      var port := FindFreePort(os);
      var cmd := [pythonPath, scriptPath, "--env-name", envName, "--port", DecimalString(port)];
      var proc := os.Popen(cmd);
      if proc.Err? {
        return Some(proc.error);
      }
      workers := workers[envName := WorkerInfo(proc.value, port)];
      error := None;
    }

    /**
     * The loop of `__init__` over the configured environments, in file order,
     * stopping at the first environment whose set-up fails.
     */
    method SetUpAll(config: Config, os: Os) returns (error: Option<Exc>)
      requires Valid() && workers == map[] && usedPorts == {} && envPaths == map[]
      requires baseDir == AbsPath(os.cwd, "virtualenvs")
      requires NamesDistinct(config.environments)
      requires FreshDraws(os.ports, {}) >= |config.environments|
      modifies this`workers, this`usedPorts, this`envPaths, os`ran, os`ports, os`launched
      ensures Valid()
      ensures error.None? ==> Registered(this, config, os.cwd)
      ensures SetUpOutcome(os, baseDir, config.environments, workers, usedPorts, old(os.ports), os.ports,
                           old(os.ran), os.ran, old(os.launched), os.launched, error)
      ensures NothingFails(os) ==> error.None?
    {
      var envs := config.environments;
      var i := 0;
      while i < |envs|
        invariant 0 <= i <= |envs|
        invariant Valid()
        invariant workers.Keys == NamesOf(envs[..i])
        invariant envPaths == EnvPathMap(envs[..i], os.cwd, baseDir)
        invariant usedPorts == PortsOf(workers)
        invariant FreshDraws(os.ports, usedPorts) >= |envs| - i
        invariant SetUpDone(os, baseDir, envs, i, workers, old(os.launched), os.launched)
        invariant os.ran == old(os.ran) + RanFor(os, baseDir, envs[..i])
        invariant Consumed(old(os.ports), os.ports)
      {
        error := SetUpNext(envs, i, os, old(os.ports), old(os.ran), old(os.launched));
        if error.Some? {
          SetUpSucceedsWhenNothingFails(os, baseDir, envs, workers, usedPorts, old(os.ports), os.ports, old(os.ran), os.ran,
                                        old(os.launched), os.launched, error);
          return;
        }
        i := i + 1;
      }
      assert envs[..i] == envs;
      error := None;
      SetUpSucceedsWhenNothingFails(os, baseDir, envs, workers, usedPorts, old(os.ports), os.ports, old(os.ran), os.ran,
                                    old(os.launched), os.launched, error);
    }

    /**
     * One pass of the loop of `__init__`, on the environment `envs[i]`, with
     * the earlier ones set up since `ran0` and `launched0`: on success the
     * loop's invariant holds for `i + 1`, on failure set-up stops here.
     */
    method SetUpNext(envs: seq<(string, EnvConfig)>, i: nat, os: Os, ghost ports0: seq<Port>,
                     ghost ran0: seq<seq<string>>, ghost launched0: seq<seq<string>>) returns (error: Option<Exc>)
      requires i < |envs| && NamesDistinct(envs)
      requires Valid() && workers.Keys == NamesOf(envs[..i]) && usedPorts == PortsOf(workers)
      requires envPaths == EnvPathMap(envs[..i], os.cwd, baseDir)
      requires FreshDraws(os.ports, usedPorts) >= |envs| - i
      requires SetUpDone(os, baseDir, envs, i, workers, launched0, os.launched)
      requires os.ran == ran0 + RanFor(os, baseDir, envs[..i])
      requires Consumed(ports0, os.ports)
      modifies this`workers, this`usedPorts, this`envPaths, os`ran, os`ports, os`launched
      ensures Valid()
      ensures error.None? ==>
                && workers.Keys == NamesOf(envs[..i + 1]) && usedPorts == PortsOf(workers)
                && envPaths == EnvPathMap(envs[..i + 1], os.cwd, baseDir)
                && FreshDraws(os.ports, usedPorts) >= |envs| - (i + 1)
                && SetUpDone(os, baseDir, envs, i + 1, workers, launched0, os.launched)
                && os.ran == ran0 + RanFor(os, baseDir, envs[..i + 1])
                && Consumed(ports0, os.ports)
      ensures error.Some? ==>
                SetUpOutcome(os, baseDir, envs, workers, usedPorts, ports0, os.ports, ran0, os.ran, launched0, os.launched, error)
    {
      var (envName, envConfig) := envs[i];
      NamesOfDistinct(envs, i);
      FreshDrawsPositive(os.ports, usedPorts);
      EnvPathMapSnoc(envs, i, os.cwd, baseDir);
      ghost var drawn := FirstFresh(os.ports, usedPorts);
      ghost var port := os.ports[drawn];
      ghost var ports1 := os.ports;
      ghost var workers0, launched1 := workers, os.launched;
      ghost var path := PathOf(os, baseDir, envs[i]);
      assert path == EnvPath(os.cwd, baseDir, envName, envConfig);
      assert PlanOf(os, baseDir, envs[i]) == BuildPlan(path, envConfig, os.pathExists(path));
      ghost var ran1 := os.ran;
      ghost var failed := PlanError(PlanOf(os, baseDir, envs[i]), os.callError);
      error := SetUpEnvironment(envName, envConfig, os);
      RanForStep(os, baseDir, envs, i, ran0, ran1);
      if failed.None? {
        ConsumedDraw(ports0, ports1, drawn, os.ports);
      }
      if error.Some? {
        SetUpStopsAt(os, baseDir, envs, i, workers, usedPorts, ports0, os.ports, ran0, os.ran, launched0, os.launched,
                     error.value, port);
      } else {
        SetUpDoneStep(os, baseDir, envs, i, workers0, launched0, launched1, port);
      }
    }

    /**
     * One iteration of the set-up loop of `__init__`: settle the directory of
     * the environment (building it unless it is external), record it in
     * `env_paths`, then start its worker.
     */
    method SetUpEnvironment(envName: string, envConfig: EnvConfig, os: Os) returns (error: Option<Exc>)
      requires Valid() && usedPorts == PortsOf(workers) && envName !in workers
      requires HasFresh(os.ports, usedPorts) && FreshDraws(os.ports, usedPorts) >= 1
      modifies this`workers, this`usedPorts, this`envPaths, os`ran, os`ports, os`launched
      ensures var path := EnvPath(os.cwd, baseDir, envName, envConfig);
              os.ran == old(os.ran) + Executed(BuildPlan(path, envConfig, os.pathExists(path)), os.callError)
      ensures var path := EnvPath(os.cwd, baseDir, envName, envConfig);
              var failed := PlanError(BuildPlan(path, envConfig, os.pathExists(path)), os.callError);
              failed.Some? ==>
                error == failed && unchanged(this) && os.ports == old(os.ports) && os.launched == old(os.launched)
      ensures var path := EnvPath(os.cwd, baseDir, envName, envConfig);
              var failed := PlanError(BuildPlan(path, envConfig, os.pathExists(path)), os.callError);
              var i := FirstFresh(old(os.ports), old(usedPorts));
              var port := old(os.ports)[i];
              failed.None? ==>
                && error == os.spawnError(WorkerCommand(os.workerScript, envName, path, port))
                && envPaths == old(envPaths)[envName := path]
                && port !in old(usedPorts) && usedPorts == old(usedPorts) + {port}
                && os.ports == old(os.ports)[i + 1..]
      ensures var path := EnvPath(os.cwd, baseDir, envName, envConfig);
              var failed := PlanError(BuildPlan(path, envConfig, os.pathExists(path)), os.callError);
              var port := old(os.ports)[FirstFresh(old(os.ports), old(usedPorts))];
              failed.None? && error.None? ==>
                && workers == old(workers)[envName := WorkerInfo(Process(|old(os.launched)|), port)]
                && os.launched == old(os.launched) + [WorkerCommand(os.workerScript, envName, path, port)]
      ensures var path := EnvPath(os.cwd, baseDir, envName, envConfig);
              var failed := PlanError(BuildPlan(path, envConfig, os.pathExists(path)), os.callError);
              failed.None? && error.Some? ==> workers == old(workers) && os.launched == old(os.launched)
      ensures error.None? ==> Valid() && usedPorts == PortsOf(workers)
      ensures error.None? ==> workers.Keys == old(workers).Keys + {envName}
      ensures error.None? ==> FreshDraws(os.ports, usedPorts) == FreshDraws(old(os.ports), old(usedPorts)) - 1
    {
      var envPath;
      envPath, error := PrepareEnvironment(envName, envConfig, os);
      if error.Some? {
        return;
      }
      error := RecordAndStart(envName, envPath, os);
    }

    /** The last two lines of an iteration: record the directory in `env_paths`, then start the worker. */
    method RecordAndStart(envName: string, envPath: string, os: Os) returns (error: Option<Exc>)
      requires Valid() && usedPorts == PortsOf(workers) && envName !in workers
      requires HasFresh(os.ports, usedPorts)
      modifies this`workers, this`usedPorts, this`envPaths, os`ports, os`launched
      ensures var i := FirstFresh(old(os.ports), old(usedPorts));
              var port := old(os.ports)[i];
              && error == os.spawnError(WorkerCommand(os.workerScript, envName, envPath, port))
              && envPaths == old(envPaths)[envName := envPath]
              && port !in old(usedPorts) && usedPorts == old(usedPorts) + {port}
              && os.ports == old(os.ports)[i + 1..]
      ensures var port := old(os.ports)[FirstFresh(old(os.ports), old(usedPorts))];
              error.None? ==>
                && workers == old(workers)[envName := WorkerInfo(Process(|old(os.launched)|), port)]
                && os.launched == old(os.launched) + [WorkerCommand(os.workerScript, envName, envPath, port)]
      ensures error.Some? ==> workers == old(workers) && os.launched == old(os.launched)
      ensures error.None? ==> Valid() && usedPorts == PortsOf(workers)
      ensures FreshDraws(os.ports, usedPorts) == FreshDraws(old(os.ports), old(usedPorts)) - 1
    {
      envPaths := envPaths[envName := envPath];
      FreshDrawsAfterAllocation(os.ports, usedPorts);
      ghost var before := workers;
      error := StartWorker(envName, envPath, os);
      if error.None? {
        PortsOfAdd(before, envName, workers[envName]);
      }
    }

    /**
     * The part of `__init__`'s loop that settles an environment's directory: the
     * absolute external path, or `base_dir/name` once `create_virtualenv`
     * has run there.
     */
    method PrepareEnvironment(envName: string, envConfig: EnvConfig, os: Os) returns (envPath: string, error: Option<Exc>)
      modifies os`ran
      ensures envPath == EnvPath(os.cwd, baseDir, envName, envConfig)
      ensures var plan := BuildPlan(envPath, envConfig, os.pathExists(envPath));
              os.ran == old(os.ran) + Executed(plan, os.callError) && error == PlanError(plan, os.callError)
      ensures error.Some? ==> |os.ran| > |old(os.ran)| && os.callError(os.ran[|os.ran| - 1]) == error
    {
      var existingEnvPath := envConfig.existingEnvPath;
      if Truthy(existingEnvPath) {
        envPath := AbsPath(os.cwd, existingEnvPath.value);
        error := None;
      } else {
        envPath := Join(baseDir, envName);
        error := CreateVirtualenv(envPath, envConfig, os);
        ExecutedPrefix(VenvPlan(envPath, envConfig, os.pathExists(envPath)), os.callError);
      }
    }

    /**
     * `stop_workers()`: terminate every worker, kill those that do not exit
     * within the timeout, then clear both tables.
     */
    method StopWorkers(os: Os)
      modifies this`workers, this`usedPorts, os`signals
      ensures workers == map[] && usedPorts == {} && Valid()
      ensures |os.signals| >= |old(os.signals)| && os.signals[..|old(os.signals)|] == old(os.signals)
      ensures Escalation(os.signals[|old(os.signals)|..], ProcessesOf(old(workers)), os.exitsInTime)
      ensures old(workers) == map[] ==> os.signals == old(os.signals)
      ensures DistinctProcesses(old(workers)) ==> SignalledOnce(os.signals[|old(os.signals)|..])
    {
      ghost var log: seq<Signal> := [];
      ghost var done: set<string> := {};
      var todo := workers.Keys;
      while todo != {}
        invariant workers == old(workers)
        invariant todo + done == workers.Keys && todo !! done
        invariant os.signals == old(os.signals) + log
        invariant Escalation(log, ProcessesIn(workers, done), os.exitsInTime)
        invariant DistinctProcesses(workers) ==> SignalledOnce(log)
        invariant done == {} ==> log == []
        decreases todo
      {
        var name :| name in todo;
        var proc := workers[name].process;
        ghost var sent := StopProcess(proc, os);
        StopStep(workers, done, name, log, os.exitsInTime, sent);
        log := log + sent;
        todo := todo - {name};
        done := done + {name};
      }
      ProcessesInAll(workers);
      assert os.signals[|old(os.signals)|..] == log;
      workers := map[];
      usedPorts := {};
    }
  }

  /**
   * The body of `stop_workers`' loop for one process: `terminate()`, then
   * `kill()` when `wait(timeout=5)` times out.
   */
  method StopProcess(proc: Process, os: Os) returns (ghost sent: seq<Signal>)
    modifies os`signals
    ensures sent == if os.exitsInTime(proc) then [Sigterm(proc)] else [Sigterm(proc), Sigkill(proc)]
    ensures os.signals == old(os.signals) + sent
  {
    os.Terminate(proc);
    var exited := os.Wait(proc);
    if !exited {
      os.Kill(proc);
    }
    sent := if exited then [Sigterm(proc)] else [Sigterm(proc), Sigkill(proc)];
  }

  /** The processes of the workers named in `names`. */
  ghost function ProcessesIn(workers: map<string, WorkerInfo>, names: set<string>): set<Process>
  {
    set n | n in names && n in workers :: workers[n].process
  }

  lemma ProcessesInAdd(workers: map<string, WorkerInfo>, names: set<string>, n: string)
    requires n in workers
    ensures ProcessesIn(workers, names + {n}) == ProcessesIn(workers, names) + {workers[n].process}
  {
    assert workers[n].process in ProcessesIn(workers, names + {n});
  }

  lemma ProcessesInAll(workers: map<string, WorkerInfo>)
    ensures ProcessesIn(workers, workers.Keys) == ProcessesOf(workers)
  {
  }

  /** One iteration of the loop of `stop_workers`, on the worker `name`. */
  lemma StopStep(workers: map<string, WorkerInfo>, done: set<string>, name: string,
                 log: seq<Signal>, exits: Process -> bool, sent: seq<Signal>)
    requires name in workers && name !in done
    requires Escalation(log, ProcessesIn(workers, done), exits)
    requires DistinctProcesses(workers) ==> SignalledOnce(log)
    requires var p := workers[name].process;
             sent == if exits(p) then [Sigterm(p)] else [Sigterm(p), Sigkill(p)]
    ensures Escalation(log + sent, ProcessesIn(workers, done + {name}), exits)
    ensures DistinctProcesses(workers) ==> SignalledOnce(log + sent)
  {
    var p := workers[name].process;
    if DistinctProcesses(workers) {
      assert p !in ProcessesIn(workers, done);
      SignalledOnceStep(log, ProcessesIn(workers, done), exits, p, sent);
    }
    EscalationStep(log, ProcessesIn(workers, done), exits, p, sent);
    ProcessesInAdd(workers, done, name);
  }

  /** No two workers share a process. */
  predicate DistinctProcesses(workers: map<string, WorkerInfo>)
  {
    forall a, b :: a in workers && b in workers && a != b ==> workers[a].process != workers[b].process
  }

  /** No process is sent the same signal twice. */
  ghost predicate SignalledOnce(log: seq<Signal>)
  {
    forall i, j :: 0 <= i < j < |log| && log[i].Sigterm? == log[j].Sigterm? ==> log[i].proc != log[j].proc
  }

  /** Signalling a process not signalled before keeps every signal to a process single. */
  lemma SignalledOnceStep(log: seq<Signal>, procs: set<Process>, exits: Process -> bool,
                          p: Process, sent: seq<Signal>)
    requires Escalation(log, procs, exits) && SignalledOnce(log) && p !in procs
    requires sent == if exits(p) then [Sigterm(p)] else [Sigterm(p), Sigkill(p)]
    ensures SignalledOnce(log + sent)
  {
    var log' := log + sent;
    forall i, j | 0 <= i < j < |log'| && log'[i].Sigterm? == log'[j].Sigterm?
      ensures log'[i].proc != log'[j].proc
    {
      if j >= |log| && i < |log| {
        assert log'[i] == log[i] && log[i].proc in procs;
      } else if i >= |log| {
        assert i == |log| && j == |log| + 1;
      } else {
        assert log'[i] == log[i] && log'[j] == log[j];
      }
    }
  }

  /** Terminating `p`, and killing it when it does not exit in time, extends an escalation to `p`. */
  lemma EscalationStep(log: seq<Signal>, procs: set<Process>, exits: Process -> bool,
                       p: Process, sent: seq<Signal>)
    requires Escalation(log, procs, exits)
    requires sent == if exits(p) then [Sigterm(p)] else [Sigterm(p), Sigkill(p)]
    ensures Escalation(log + sent, procs + {p}, exits)
  {
    var log' := log + sent;
    forall q | q in procs + {p}
      ensures Sigterm(q) in log'
      ensures Sigkill(q) in log' <==> !exits(q)
    {
      if q == p {
        assert log'[|log|] == Sigterm(p);
        if !exits(p) { assert log'[|log| + 1] == Sigkill(p); }
      } else {
        assert Sigterm(q) in log;
        assert Sigkill(q) !in sent;
      }
    }
    forall i | 0 <= i < |log'| && log'[i].Sigkill?
      ensures 0 < i && log'[i - 1] == Sigterm(log'[i].proc)
    {
      if i >= |log| {
        assert i == |log| + 1;
      } else {
        assert log'[i - 1] == log[i - 1];
      }
    }
  }

  lemma PortsOfAdd(workers: map<string, WorkerInfo>, n: string, info: WorkerInfo)
    requires n !in workers
    ensures PortsOf(workers[n := info]) == PortsOf(workers) + {info.port}
  {
    var after := workers[n := info];
    assert after[n].port == info.port;
    forall p | p in PortsOf(workers)
      ensures p in PortsOf(after)
    {
      var k :| k in workers && workers[k].port == p;
      assert after[k] == workers[k];
    }
  }

  lemma {:induction false} EnvPathMapSnoc(envs: seq<(string, EnvConfig)>, i: nat, cwd: string, baseDir: string)
    requires i < |envs|
    ensures EnvPathMap(envs[..i + 1], cwd, baseDir) ==
            EnvPathMap(envs[..i], cwd, baseDir)[envs[i].0 := EnvPath(cwd, baseDir, envs[i].0, envs[i].1)]
  {
    assert envs[..i + 1][..i] == envs[..i];
  }

  /** The registry holds one worker per configured name, on the ports it alone uses. */
  ghost predicate Registered(m: Manager, config: Config, cwd: string)
    reads m
  {
    && m.baseDir == AbsPath(cwd, "virtualenvs")
    && m.workers.Keys == NamesOf(config.environments)
    && m.envPaths == EnvPathMap(config.environments, cwd, m.baseDir)
    && m.usedPorts == PortsOf(m.workers)
  }

  /** The class object `VirtualEnvManager`, holding the class attribute `_instance`. */
  class ManagerClass {
    var instance: Manager?

    /** The recorded instance, if any, keeps its invariant. */
    ghost predicate Valid()
      reads this, instance
    {
      instance != null ==> instance.Valid()
    }

    constructor ()
      ensures instance == null && Valid()
    {
      instance := null;
    }

    /**
     * `VirtualEnvManager(config_file)` with the file already loaded: refuse
     * when an instance exists, else set up every environment in order.  A
     * failing build or launch aborts; workers already launched are not
     * stopped.  Construction does not itself record the instance.
     */
    method New(config: Config, os: Os) returns (r: Result<Manager, Exc>)
      requires instance == null ==> NamesDistinct(config.environments)
      requires instance == null ==> FreshDraws(os.ports, {}) >= |config.environments|
      modifies os
      ensures old(instance) != null ==> r == Err(SingletonError) && unchanged(os)
      ensures r.Ok? ==> fresh(r.value) && r.value.Valid() && Registered(r.value, config, os.cwd)
      ensures old(instance) == null && r.Ok? ==>
                SetUpOutcome(os, r.value.baseDir, config.environments, r.value.workers, r.value.usedPorts,
                             old(os.ports), os.ports, old(os.ran), os.ran, old(os.launched), os.launched, None)
      ensures old(instance) == null && r.Err? ==>
                exists workers, usedPorts, k: nat ::
                  SetUpFailedAt(os, AbsPath(os.cwd, "virtualenvs"), config.environments, k, workers, usedPorts,
                                old(os.ports), os.ports, old(os.ran), os.ran, old(os.launched), os.launched, r.error)
      ensures old(instance) == null && NothingFails(os) ==> r.Ok?
      ensures os.signals == old(os.signals)
    {
      if instance != null {
        return Err(SingletonError);
      }
      var m := new Manager(AbsPath(os.cwd, "virtualenvs"));
      var error := m.SetUpAll(config, os);
      if error.Some? {
        return Err(error.value);
      }
      return Ok(m);
    }

    /**
     * `VirtualEnvManager.get_instance(config_file)`: the existing instance if
     * there is one (the configuration is then ignored); otherwise build one
     * from the configuration and record it, or fail when none is given.
     */
    method GetInstance(config: Option<Config>, os: Os) returns (r: Result<Manager, Exc>)
      requires Valid()
      requires instance == null && config.Some? ==> NamesDistinct(config.value.environments)
      requires instance == null && config.Some? ==> FreshDraws(os.ports, {}) >= |config.value.environments|
      modifies this, os
      ensures Valid()
      ensures old(instance) != null ==> r == Ok(old(instance)) && instance == old(instance) && unchanged(os)
      ensures old(instance) == null && config.None? ==>
                r == Err(NeedConfigError) && instance == null && unchanged(os)
      ensures old(instance) == null && config.Some? ==>
                && (r.Ok? ==> instance == r.value && fresh(r.value) && r.value.Valid()
                              && Registered(r.value, config.value, os.cwd))
                && (r.Ok? ==> SetUpOutcome(os, r.value.baseDir, config.value.environments, r.value.workers,
                                           r.value.usedPorts, old(os.ports), os.ports, old(os.ran), os.ran, old(os.launched), os.launched, None))
                && (r.Err? ==>
                      && instance == null
                      && exists workers, usedPorts, k: nat ::
                        SetUpFailedAt(os, AbsPath(os.cwd, "virtualenvs"), config.value.environments, k, workers, usedPorts,
                                      old(os.ports), os.ports, old(os.ran), os.ran, old(os.launched), os.launched, r.error))
                && (NothingFails(os) ==> r.Ok?)
    {
      if instance == null {
        if config.None? {
          return Err(NeedConfigError);
        }
        r := New(config.value, os);
        if r.Err? {
          return;
        }
        instance := r.value;
      }
      return Ok(instance);
    }
  }
}

=== FILE: worker.dfy ===
/**
 * The per-connection handler of a worker process (`handle_client`): read a
 * request framed by the three bytes `END`, unpickle `(func, args, kwargs)`,
 * run the call with `sys.stdout`/`sys.stderr` swapped for private buffers,
 * send back a pickled envelope, and close the connection on every path.
 */
module Worker {
  import opened Wrappers
  import opened Pickling
  import opened Io

  /** `b'END'` */
  const Sentinel: seq<byte> := [69, 78, 68]

  /** `data.endswith(b'END')` */
  predicate EndsWithSentinel(s: seq<byte>)
  {
    |s| >= 3 && s[|s| - 3..] == Sentinel
  }

  /** Some prefix of `s` ends with `END`, i.e. `END` occurs somewhere in `s`. */
  predicate ContainsSentinel(s: seq<byte>)
  {
    exists m :: 3 <= m <= |s| && EndsWithSentinel(s[..m])
  }

  /** `data[:-3]`; Python's slice gives the empty string when fewer than three bytes are there. */
  function StripSentinel(data: seq<byte>): seq<byte>
  {
    if |data| >= 3 then data[..|data| - 3] else []
  }

  /**
   * The read loop of `handle_client`, carried on from the bytes `acc`
   * gathered so far: stop at an empty packet (end of stream) or as soon as
   * the gathered bytes end with `END`; a failing `recv` ends it with that error.
   */
  function Receive(rs: seq<Recv>, acc: seq<byte>): ReadOutcome
    decreases |rs|
  {
    if rs == [] then Received(acc)
    else match rs[0]
      case RecvError(e) => ReadFailed(e)
      case Packet(p) =>
        if p == [] then Received(acc)
        else if EndsWithSentinel(acc + p) then Received(acc + p)
        else Receive(rs[1..], acc + p)
  }

  /** The loop goes on past packet `j`: it is data, and the bytes up to it do not end with `END`. */
  predicate Continues(rs: seq<Recv>, j: nat)
    requires j < |rs|
  {
    rs[j].Packet? && rs[j].bytes != [] && !EndsWithSentinel(Flatten(rs[..j + 1]))
  }

  /** After `k` packets the loop has gathered exactly their concatenation. */
  lemma {:induction false} ReceiveFromBoundary(rs: seq<Recv>, k: nat)
    requires k <= |rs|
    requires forall j :: 0 <= j < k ==> Continues(rs, j)
    ensures Receive(rs, []) == Receive(rs[k..], Flatten(rs[..k]))
  {
    if k == 0 {
      assert rs[..0] == [];
    } else {
      ReceiveFromBoundary(rs, k - 1);
      FlattenSnoc(rs, k - 1);
      assert Continues(rs, k - 1);
      assert rs[k - 1..][0] == rs[k - 1];
      assert rs[k - 1..][1..] == rs[k..];
    }
  }

  /** The loop stops at the first packet boundary where the gathered bytes end with `END`. */
  lemma ReceiveStopsAtSentinel(rs: seq<Recv>, k: nat)
    requires k < |rs|
    requires forall j :: 0 <= j < k ==> Continues(rs, j)
    requires rs[k].Packet? && rs[k].bytes != [] && EndsWithSentinel(Flatten(rs[..k + 1]))
    ensures Receive(rs, []) == Received(Flatten(rs[..k + 1]))
  {
    ReceiveFromBoundary(rs, k);
    FlattenSnoc(rs, k);
    assert rs[k..][0] == rs[k];
  }

  /** The loop stops at the first empty packet, or when the peer has nothing more to send. */
  lemma ReceiveStopsAtEof(rs: seq<Recv>, k: nat)
    requires k <= |rs|
    requires forall j :: 0 <= j < k ==> Continues(rs, j)
    requires k == |rs| || rs[k] == Packet([])
    ensures Receive(rs, []) == Received(Flatten(rs[..k]))
  {
    ReceiveFromBoundary(rs, k);
    if k < |rs| {
      assert rs[k..][0] == rs[k];
    } else {
      assert rs[k..] == [];
    }
  }

  /** A `recv` that raises before the loop has stopped ends the read with that error. */
  lemma ReceiveFailsAt(rs: seq<Recv>, k: nat)
    requires k < |rs|
    requires forall j :: 0 <= j < k ==> Continues(rs, j)
    requires rs[k].RecvError?
    ensures Receive(rs, []) == ReadFailed(rs[k].error)
  {
    ReceiveFromBoundary(rs, k);
    assert rs[k..][0] == rs[k];
  }

  /** A strict prefix of `payload + END` ends with `END` only if `payload` contains `END`. */
  lemma PrefixOfFramed(payload: seq<byte>, m: nat)
    requires !ContainsSentinel(payload)
    requires m < |payload| + 3
    ensures !EndsWithSentinel((payload + Sentinel)[..m])
  {
    if m <= |payload| {
      assert (payload + Sentinel)[..m] == payload[..m];
      assert EndsWithSentinel(payload[..m]) ==> ContainsSentinel(payload);
    } else {
      var last := (payload + Sentinel)[..m][m - 1];
      assert last == Sentinel[m - 1 - |payload|] != Sentinel[2];
    }
  }

  lemma FlattenNonEmpty(rs: seq<Recv>)
    requires AllData(rs) && rs != []
    ensures |Flatten(rs)| >= 1
  {
    assert Flatten(rs) == rs[0].bytes + Flatten(rs[1..]);
  }

  /**
   * Framing round trip: however a request `payload + END` is cut into
   * packets, the worker extracts exactly `payload`, provided `END` does not
   * occur inside `payload`.
   */
  lemma SentinelFraming(payload: seq<byte>, rs: seq<Recv>)
    requires !ContainsSentinel(payload)
    requires AllData(rs)
    requires Flatten(rs) == payload + Sentinel
    ensures Receive(rs, []) == Received(payload + Sentinel)
    ensures StripSentinel(payload + Sentinel) == payload
  {
    var framed := payload + Sentinel;
    assert rs != [];
    var k := |rs| - 1;
    forall j | 0 <= j < k
      ensures Continues(rs, j)
    {
      assert rs == rs[..j + 1] + rs[j + 1..];
      FlattenAppend(rs[..j + 1], rs[j + 1..]);
      FlattenNonEmpty(rs[j + 1..]);
      var m := |Flatten(rs[..j + 1])|;
      assert Flatten(rs[..j + 1]) == framed[..m];
      PrefixOfFramed(payload, m);
    }
    assert rs[..k + 1] == rs;
    ReceiveStopsAtSentinel(rs, k);
    assert framed[..|framed| - 3] == payload;
  }

  /**
   * The framing hazard: when `END` occurs inside the payload and a packet
   * happens to end right after it, the worker cuts the request there.
   */
  lemma EarlySentinelCutsRequest(head: seq<byte>, tail: seq<byte>)
    requires tail != []
    ensures var rs := [Packet(head + Sentinel), Packet(tail + Sentinel)];
            Flatten(rs) == (head + Sentinel + tail) + Sentinel &&
            Receive(rs, []) == Received(head + Sentinel) &&
            StripSentinel(head + Sentinel) == head != head + Sentinel + tail
  {
    var rs := [Packet(head + Sentinel), Packet(tail + Sentinel)];
    assert Flatten(rs[1..][1..]) == [];
    assert Flatten(rs) == (head + Sentinel) + (tail + Sentinel);
    assert (head + Sentinel)[|head + Sentinel| - 3..] == Sentinel;
    assert (head + Sentinel)[..|head + Sentinel| - 3] == head;
  }

  /**
   * A request cut short by end of stream is not refused: with no `END` in
   * what arrived, the worker still takes all of it and drops its last three
   * bytes as if they were the sentinel.
   */
  lemma TruncatedRequest(payload: seq<byte>, rs: seq<Recv>)
    requires !ContainsSentinel(payload)
    requires AllData(rs) && Flatten(rs) == payload
    ensures Receive(rs, []) == Received(payload)
    ensures |payload| >= 3 ==> StripSentinel(payload) == payload[..|payload| - 3]
    ensures |payload| < 3 ==> StripSentinel(payload) == []
  {
    forall j | 0 <= j < |rs|
      ensures Continues(rs, j)
    {
      assert rs == rs[..j + 1] + rs[j + 1..];
      FlattenAppend(rs[..j + 1], rs[j + 1..]);
      var m := |Flatten(rs[..j + 1])|;
      assert Flatten(rs[..j + 1]) == payload[..m];
      assert EndsWithSentinel(payload[..m]) ==> 3 <= m <= |payload| && ContainsSentinel(payload);
    }
    assert rs[..|rs|] == rs;
    ReceiveStopsAtEof(rs, |rs|);
  }

  /** What the invoked callable does: what it prints to each stream, then whether it returns or raises. */
  datatype Outcome = Returns(value: Value) | Raises(error: Exc)
  datatype Behaviour = Behaviour(out: string, err: string, outcome: Outcome)

  /**
   * What a connection ends with: an envelope sent back, or an error that no
   * `except Exception` catches and that leaves `handle_client` with nothing sent.
   */
  datatype Reply = Reply(envelope: Envelope) | Escaped(error: Exc)

  /** The top-level handler: a read, unpickling or unpacking failure. */
  function TopLevel(e: Exc): Reply
  {
    if e.isException then Reply(Failure(e, FormatExc(e))) else Escaped(e)
  }

  /** The reply built around one invocation of the callable. */
  function Invoked(b: Behaviour): Reply
  {
    match b.outcome
    case Returns(v) => Reply(Success(v, b.out, b.err))
    case Raises(e) =>
      if e.isException then Reply(Failure(e, b.err + "\n" + FormatExc(e))) else Escaped(e)
  }

  /** What `handle_client` answers to the packets `rs` when `run` says how each call behaves. */
  function Respond(rs: seq<Recv>, p: Pickler, run: Call -> Behaviour): Reply
  {
    match Receive(rs, [])
    case ReadFailed(e) => TopLevel(e)
    case Received(data) =>
      match p.loads(StripSentinel(data))
      case Err(e) => TopLevel(e)
      case Ok(CallObj(c)) => Invoked(run(c))
      case Ok(_) => TopLevel(UnpackError)
  }

  /** The bytes `handle_client` writes for a reply. */
  function ReplyBytes(reply: Reply, p: Pickler): seq<byte>
  {
    if reply.Reply? then p.dumps(EnvObj(reply.envelope)) else []
  }

  /** A failing call's envelope keeps what it printed to stderr, then a traceback naming its error. */
  lemma FailureCarriesTraceback(b: Behaviour)
    requires b.outcome.Raises? && b.outcome.error.isException
    ensures var e := b.outcome.error;
            var line := ExceptionLine(e);
            Invoked(b).Reply? && Invoked(b).envelope.Failure? &&
            Invoked(b).envelope.exception == e &&
            var s := Invoked(b).envelope.stderr;
            |s| >= |b.err| + 1 + |line| &&
            s[..|b.err| + 1] == b.err + "\n" && s[|s| - |line|..] == line &&
            (e.message == "" ==> s[|s| - |e.kind| - 1..] == e.kind + "\n") &&
            (e.message != "" ==> s[|s| - |e.kind| - |e.message| - 3..] == e.kind + ": " + e.message + "\n")
  {
    var e := b.outcome.error;
    var line := ExceptionLine(e);
    var s := b.err + "\n" + FormatExc(e);
    assert FormatExc(e) == ("Traceback (most recent call last):\n" + e.frames) + line;
    assert s == (b.err + "\n") + ("Traceback (most recent call last):\n" + e.frames) + line;
  }

  /**
   * A request that cannot be read, unpickled or unpacked is still answered,
   * by a failure envelope carrying the error and its traceback, unless the
   * error is not an `Exception`; the callable is not run.
   */
  lemma TopLevelFailureAnswered(rs: seq<Recv>, p: Pickler, run: Call -> Behaviour)
    ensures var reply := Respond(rs, p, run);
            match Receive(rs, [])
            case ReadFailed(e) => reply == (if e.isException then Reply(Failure(e, FormatExc(e))) else Escaped(e))
            case Received(data) =>
              match p.loads(StripSentinel(data))
              case Err(e) => reply == (if e.isException then Reply(Failure(e, FormatExc(e))) else Escaped(e))
              case Ok(obj) => !obj.CallObj? ==> reply == Reply(Failure(UnpackError, FormatExc(UnpackError)))
  {
  }

  /** The `while True` loop of `handle_client`. */
  method ReadRequest(conn: Socket) returns (r: ReadOutcome)
    modifies conn`incoming
    ensures r == Receive(old(conn.incoming), [])
  {
    var data: seq<byte> := [];
    while true
      invariant Receive(conn.incoming, data) == Receive(old(conn.incoming), [])
      decreases |conn.incoming|
    {
      var packet := conn.Receive();
      match packet {
        case RecvError(e) =>
          return ReadFailed(e);
        case Packet(bytes) =>
          if bytes == [] {
            return Received(data);
          }
          data := data + bytes;
          if EndsWithSentinel(data) {
            return Received(data);
          }
      }
    }
  }

  /** The callable runs; what it prints goes to whatever `sys.stdout` and `sys.stderr` are at that moment. */
  method Invoke(sys: Sys, b: Behaviour)
    requires sys.stdout != sys.stderr
    modifies sys.stdout, sys.stderr
    ensures sys.stdout.text == old(sys.stdout.text) + b.out
    ensures sys.stderr.text == old(sys.stderr.text) + b.err
  {
    sys.stdout.Write(b.out);
    sys.stderr.Write(b.err);
  }

  /**
   * The `try`/`except`/`finally` around the call: swap in fresh buffers, run the call, build the envelope from
   * the buffers, and restore the previous streams whatever happened.
   */
  method RunCaptured(sys: Sys, b: Behaviour) returns (reply: Reply)
    modifies sys
    ensures reply == Invoked(b)
    ensures sys.stdout == old(sys.stdout) && sys.stderr == old(sys.stderr)
    ensures unchanged(sys.stdout, sys.stderr)
  {
    var stdout := new TextBuffer();
    var stderr := new TextBuffer();
    var oldStdout, oldStderr := sys.stdout, sys.stderr;
    sys.stdout, sys.stderr := stdout, stderr;
    Invoke(sys, b);
    assert stdout.text == b.out && stderr.text == b.err;
    match b.outcome {
      case Returns(v) =>
        reply := Reply(Success(v, stdout.text, stderr.text));
      case Raises(e) =>
        if e.isException {
          reply := Reply(Failure(e, stderr.text + "\n" + FormatExc(e)));
        } else {
          reply := Escaped(e);
        }
    }
    sys.stdout, sys.stderr := oldStdout, oldStderr;
    stdout.Close();
    stderr.Close();
  }

  /**
   * `handle_client(conn)`: answers with the reply `Respond` describes,
   * restores the worker's streams and closes the connection on every path;
   * `raised` is the error that leaves the handler, if any.
   */
  method HandleClient(conn: Socket, sys: Sys, p: Pickler, run: Call -> Behaviour)
    returns (raised: Option<Exc>)
    modifies conn, sys
    ensures var reply := Respond(old(conn.incoming), p, run);
            conn.sent == old(conn.sent) + ReplyBytes(reply, p) &&
            raised == if reply.Escaped? then Some(reply.error) else None
    ensures conn.closed
    ensures sys.stdout == old(sys.stdout) && sys.stderr == old(sys.stderr)
    ensures unchanged(sys.stdout, sys.stderr)
  {
    var reply: Reply;
    var read := ReadRequest(conn);
    match read {
      case ReadFailed(e) =>
        reply := TopLevel(e);
      case Received(data) =>
        var payload := StripSentinel(data);
        var decoded := p.loads(payload);
        match decoded {
          case Err(e) =>
            reply := TopLevel(e);
          case Ok(obj) =>
            if obj.CallObj? {
              reply := RunCaptured(sys, run(obj.call));
            } else {
              reply := TopLevel(UnpackError);
            }
        }
    }
    if reply.Reply? {
      conn.SendAll(p.dumps(EnvObj(reply.envelope)));
      raised := None;
    } else {
      raised := Some(reply.error);
    }
    conn.Close();
  }
}

=== FILE: wrappers.dfy ===
/** Failure-carrying values used throughout the model. */
module Wrappers {

  datatype Option<+T> = None | Some(value: T)

  /** The outcome of a Python call: it returns a value or raises an error. */
  datatype Result<+T, +E> = Ok(value: T) | Err(error: E)
}
